=== FILE: README.md ===
# Shopping-app client core, in Dafny

This project models the client-side core of a React Native shopping app. It covers:

- the four persisted stores: cart, wishlist, UI preferences and authentication;
- the HTTP client policy: bearer tokens, a single replay after a 401 with a token refresh, error normalization, and retry with a doubling delay for reads;
- the form validation rules;
- the query-key factories, paging rule, enable gates and cache invalidation sets of the product, order and address data hooks.

Every store action is a pure transition. It takes the store state, the device storage and the outcome of each remote call it makes. It returns a `Step`:

- the new state;
- the new storage;
- the requests issued, in order;
- the error rethrown to the caller, if any.

Device storage is two abstract maps. `secure` stands for the credential store. `cache` stands for the asynchronous key/value cache and holds typed values, not JSON text.

Remote calls, the clock (temporary ids and timestamps) and the e-mail format check are parameters. The transport is an oracle: `outcome(k)` is how the k-th attempt ends.

Files, one module each:

- `wrappers.dfy`, `types.dfy`, `persistence.dfy` and `seqs.dfy`: the shared base;
- `cart_store.dfy`, `wishlist_store.dfy`, `ui_store.dfy` and `auth_store.dfy`: the stores;
- `api_client.dfy`: the HTTP client;
- `validation.dfy`: the form rules;
- `query_keys.dfy`, `product_queries.dfy`, `order_queries.dfy` and `address_queries.dfy`: the data hooks.

## Where the code and its description differ

The model follows the code in each case.

- **Failed add to cart.** Adding an item writes the optimistic cart to the cache first. If the add fails and the reload fails too, the reload falls back to that cache, so the temporary item stays in the cart (`CartStore.FailedAddKeepsTemporaryItem`). Only a successful reload removes it (`CartStore.FailedAddReloadRestoresServerCart`).
- **Logout.** Logout deletes the cart and wishlist cache entries, but the in-memory cart and wishlist stores are not reset by it.
- **Session restore.** `loadUser` restores `user` and `isAuthenticated` but never sets `tokens`. After a restart the session is authenticated while `tokens` is null (`AuthStore.LoginThenRestart`).
- **Empty phone number.** The signup form accepts an empty phone number, but the profile form rejects it (`Validation.EmptyPhoneDiffers`).
- **Theme.** The theme is stored and reloaded as a raw string, and any non-empty stored text is installed as the theme.
- **Cache keys that ignore arguments.** The product search key ignores the search filters, and the trending, best-seller, new-arrival and similar keys ignore `limit`. Queries that differ only in those arguments share one cache entry (`ProductQueries.KeysIgnoreLimitAndSearchFilters`).

## Model

| member | source | states |
|---|---|---|
| Types.MessageOr | src/store/cartStore.ts:104-108 | the rejection's message when non-empty, else the fallback; never empty when the fallback is not |
| Persistence.SetSecure | src/store/authStore.ts:46-47 | writing a secure slot sets that slot, keeps every other slot and the whole cache, and adds no other key |
| Persistence.DeleteSecure | src/store/authStore.ts:103-104 | deleting a secure slot removes exactly that key, keeps every surviving slot's value and keeps the cache |
| Persistence.Put | src/store/cartStore.ts:62 | writing a cache entry sets that key, keeps every other entry and the secure store, and adds no other key |
| Persistence.Remove | src/store/cartStore.ts:176 | removing a cache entry removes exactly that key and keeps every surviving entry's value and the secure store |
| Persistence.SecureToken | src/services/api/client.ts:30-33 | a secure slot counts as present exactly when it exists and is non-empty, and then the stored token is returned |
| Seqs.Filter | src/store/cartStore.ts:150 | `Array.filter`: the result keeps exactly the elements satisfying the test, all taken from the input |
| Seqs.FilterConcat | src/store/uiStore.ts:54 | filtering a concatenation filters each part and keeps their order |
| Seqs.FilterKeepsAll | src/store/uiStore.ts:54 | a filter that rejects nothing returns its input |
| Seqs.Occurrences | src/store/uiStore.ts:54 | the count of a value is zero exactly when the value is absent |
| CartStore.ReduceSubtotal | src/store/cartStore.ts:30 | the left fold of price times quantity equals the recursive sum of line totals |
| CartStore.ReduceItemCount | src/store/cartStore.ts:34 | the left fold of quantities equals the recursive item count |
| CartStore.CalculateCartTotals | src/store/cartStore.ts:29-37 | item count and subtotal are the sums over the items; discount is 0, tax is 18% of the subtotal, total is subtotal minus discount plus tax; no items give all zeros |
| CartStore.WithTotals | src/store/cartStore.ts:90-97 | a locally built cart keeps the given items and its derived fields agree with them |
| CartStore.EmptyCartTotals | src/store/cartStore.ts:175 | totals of no items are the all-zero cart that clearing installs |
| CartStore.RemoveById | src/store/cartStore.ts:150 | the result holds every item with another id and no item with the removed id |
| CartStore.ItemsWithId | src/store/cartStore.ts:150 | exactly the items a removal drops: each comes from the list and carries the removed id, and every such item is included |
| CartStore.SetQuantity | src/store/cartStore.ts:118-120 | same length; items with the id get the new quantity, all others are unchanged |
| CartStore.OptimisticAdd | src/store/cartStore.ts:78-97 | the new item is appended to the current items (none when there is no cart); count and subtotal grow by exactly that line |
| CartStore.OptimisticUpdate | src/store/cartStore.ts:114-128 | only quantities of the matching items change; the count is the untouched items' count plus the new quantity per matching item |
| CartStore.OptimisticRemove | src/store/cartStore.ts:146-157 | the removed id is gone; count and subtotal drop by exactly the removed items' share |
| CartStore.SubtotalConcat | src/store/cartStore.ts:30 | the subtotal of two item lists joined is the sum of their subtotals |
| CartStore.ItemCountConcat | src/store/cartStore.ts:34 | the item count of two item lists joined is the sum of their counts |
| CartStore.SplitById | src/store/cartStore.ts:150-153 | count and subtotal split exactly between the kept and the removed items |
| CartStore.SetQuantityItemCount | src/store/cartStore.ts:118-125 | after setting quantity q on the matching items the count is the rest's count plus q per match |
| CartStore.CachedCart | src/store/cartStore.ts:52-55 | a cached cart is found exactly when the cart key holds a cart, and it is that cart |
| CartStore.LoadCart | src/store/cartStore.ts:47-74 | the fetched cart wins and is cached; on fetch failure the cached cart, else the current one, stays and storage is untouched; loading ends without error |
| CartStore.Reconcile | src/store/cartStore.ts:89-110 | success adopts and caches the server cart; failure reloads, keeps the optimistic cart if the reload fails, records the fallback message and rethrows |
| CartStore.AddItem | src/store/cartStore.ts:76-110 | quantity defaults to 1; success installs and caches the server cart; failure sends the add then a reload, shows and caches the reloaded cart or else the optimistic one, records "Failed to add item" and rethrows |
| CartStore.UpdateQuantity | src/store/cartStore.ts:112-142 | no cart means nothing happens; success installs and caches the server cart; failure sends the update then a reload, shows and caches the reloaded cart or else the optimistically updated one, records "Failed to update quantity" and rethrows |
| CartStore.RemoveItem | src/store/cartStore.ts:144-171 | no cart means nothing happens; success installs and caches the server cart; failure sends the removal then a reload, shows and caches the reloaded cart or else the optimistically trimmed one, records "Failed to remove item" and rethrows |
| CartStore.ClearCart | src/store/cartStore.ts:173-181 | the all-zero cart is installed and the cache entry dropped even when the request fails; failure only records the message |
| CartStore.SyncCart | src/store/cartStore.ts:183-203 | only a non-empty cart is sent; success installs and caches the result; failure keeps cart and storage and records the message; never rethrows |
| CartStore.CouponCall | src/store/cartStore.ts:205-229 | success installs and caches the server cart; failure changes only the error and rethrows |
| CartStore.ApplyCoupon | src/store/cartStore.ts:205-216 | one coupon request; success installs and caches the server cart; failure keeps cart and storage, records "Failed to apply coupon" and rethrows |
| CartStore.RemoveCoupon | src/store/cartStore.ts:218-229 | one removal request; success installs and caches the server cart; failure keeps cart and storage, records "Failed to remove coupon" and rethrows |
| CartStore.OneLineExample | src/store/cartStore.ts:29-37 | one line at 1000 × 2 gives subtotal 2000, tax 360, total 2360, count 2; removing it gives the empty cart |
| CartStore.FailedAddKeepsTemporaryItem | src/store/cartStore.ts:93-107 | when the add and the reload both fail, the temporary item is still the last cart line |
| CartStore.FailedAddReloadRestoresServerCart | src/store/cartStore.ts:104-107 | when the add fails and the reload succeeds, state and cache hold exactly the server cart |
| CartStore.ApplyKeepsHealthy | src/store/cartStore.ts:47-229 | each cart action (load, add, update, remove, clear, sync, apply or remove a coupon) keeps the in-memory and cached carts consistent when the server's carts are |
| CartStore.RunKeepsHealthy | src/store/cartStore.ts:47-229 | any sequence of cart actions keeps both carts' totals consistent with their items |
| CartStore.ReconcileMirrors | src/store/cartStore.ts:89-110 | after an add, update or remove the cached cart is the cart shown, whichever way the request and the reload end |
| CartStore.ApplyKeepsRestorable | src/store/cartStore.ts:47-229 | each cart action, whatever the server answers, keeps the cached cart equal to the shown one, or drops it while showing the empty cart after a clear |
| CartStore.RunKeepsRestorable | src/store/cartStore.ts:47-229 | any sequence of cart actions keeps that relation between the shown and the cached cart |
| CartStore.RestartShowsCart | src/store/cartStore.ts:47-74 | a restart whose fetch fails shows the cart the store held, except that a cleared cart comes back as no cart |
| WishlistStore.Find | src/store/wishlistStore.ts:119-127 | the first position holding the product, present exactly when the product is in the wishlist |
| WishlistStore.RemoveById | src/store/wishlistStore.ts:105 | keeps every item with another id and none with the removed id |
| WishlistStore.ReplaceById | src/store/wishlistStore.ts:82-84 | same length; the item with the id is replaced, the others are unchanged |
| WishlistStore.OptimisticAdd | src/store/wishlistStore.ts:72-77 | the temporary item is appended; products stay unique when it was absent |
| WishlistStore.SwapTemporaryItem | src/store/wishlistStore.ts:72-84 | with a fresh temporary id, swapping in the server item yields the old list plus that item |
| WishlistStore.CachedWishlist | src/store/wishlistStore.ts:38-41 | a cached list is found exactly when the wishlist key holds one, and it is that list |
| WishlistStore.LoadWishlist | src/store/wishlistStore.ts:33-59 | the fetched list wins and is cached; on failure the cached list, else the current one, stays |
| WishlistStore.AddItem | src/store/wishlistStore.ts:61-98 | a product already present is a no-op with no request; success swaps in the server item and caches; failure reloads, records the message and rethrows |
| WishlistStore.RemoveItem | src/store/wishlistStore.ts:100-117 | success keeps the filtered list and caches it; failure reloads (keeping the filtered list if that fails), records the message and rethrows |
| WishlistStore.ToggleWishlist | src/store/wishlistStore.ts:123-132 | removes the first item holding the product if there is one, else adds it; never clears |
| WishlistStore.ClearWishlist | src/store/wishlistStore.ts:134-143 | the list is emptied and the cache dropped whether or not the request fails |
| WishlistStore.AddKeepsProductsUnique | src/store/wishlistStore.ts:65-77 | adding an absent product keeps products unique |
| WishlistStore.RemoveDropsProduct | src/store/wishlistStore.ts:100-105 | with unique products, removing an item removes its product |
| WishlistStore.ToggleRemoves | src/store/wishlistStore.ts:123-128 | toggling a present product whose removal succeeds leaves it absent |
| WishlistStore.ToggleTwiceRestores | src/store/wishlistStore.ts:61-132 | toggling an absent product twice with both requests succeeding restores the list and issues one removal |
| WishlistStore.ApplyKeepsMirrored | src/store/wishlistStore.ts:33-143 | each wishlist action (load, add, remove, toggle, clear), whatever the server answers, keeps the cached list equal to the shown one, with no cache meaning the empty list |
| WishlistStore.RunKeepsMirrored | src/store/wishlistStore.ts:33-143 | any sequence of wishlist actions keeps the cached list equal to the shown one |
| WishlistStore.RestartShowsWishlist | src/store/wishlistStore.ts:33-59 | a restart whose fetch fails shows exactly the list the store held |
| WishlistStore.ClearThenRestart | src/store/wishlistStore.ts:134-143 | after a clear, whether or not its request fails, a restart shows the empty list |
| UIStore.ModeName | src/store/uiStore.ts:17 | each mode has a non-empty stored name |
| UIStore.ModeNameInjective | src/store/uiStore.ts:17 | distinct modes are stored under distinct names |
| UIStore.Without | src/store/uiStore.ts:54 | the history without the query: no copy of it is left, every entry comes from the history, and every other entry is kept |
| UIStore.AddQuery | src/store/uiStore.ts:52-58 | at most 10 entries, the query first and exactly once, then the other entries in order; distinct entries stay distinct |
| UIStore.FilterDistinct | src/store/uiStore.ts:54 | filtering keeps entries distinct |
| UIStore.AddQueryIdempotent | src/store/uiStore.ts:52-58 | repeating the same search leaves the history as after the first |
| UIStore.SetThemeMode | src/store/uiStore.ts:34-37 | the theme name is shown and stored |
| UIStore.CompleteOnboarding | src/store/uiStore.ts:39-42 | the flag is set and "true" stored |
| UIStore.SetFilters | src/store/uiStore.ts:44-46 | filters are replaced wholesale; nothing else changes |
| UIStore.ClearFilters | src/store/uiStore.ts:48-50 | filters become empty; nothing else changes |
| UIStore.AddSearchQuery | src/store/uiStore.ts:52-58 | only the history changes, and what is stored equals what is shown |
| UIStore.ClearSearchHistory | src/store/uiStore.ts:60-63 | the history is emptied and its cache entry dropped |
| UIStore.CachedText | src/store/uiStore.ts:67-71 | a cached text is found exactly when the key holds text, and it is that text |
| UIStore.LoadUIState | src/store/uiStore.ts:65-81 | the theme defaults to "system" when absent or empty; onboarding is true only for the exact text "true"; a stored history is installed as it is and an absent one gives the empty history; filters are kept |
| UIStore.InitialSynced | src/store/uiStore.ts:26-31 | the initial state is what a restart reloads from empty storage |
| UIStore.ActionKeepsSynced | src/store/uiStore.ts:34-81 | after every UI action a restart reloads the theme, onboarding flag and search history it left; the filter actions write nothing to storage, so a restart brings the filters back empty |
| AuthStore.SaveSession | src/store/authStore.ts:45-50 | both tokens go to the secure store and the profile to the cache; nothing else changes |
| AuthStore.Authenticate | src/store/authStore.ts:38-94 | success installs the user and tokens, marks the session authenticated and saves it; failure records the message, keeps the session and rethrows |
| AuthStore.Login | src/store/authStore.ts:38-65 | as above, with the fallback "Login failed" |
| AuthStore.Signup | src/store/authStore.ts:67-94 | as above, with the fallback "Signup failed" |
| AuthStore.Logout | src/store/authStore.ts:96-116 | whatever the remote outcome, both tokens and the user, cart and wishlist cache entries are deleted and the session fields reset; loading is untouched |
| AuthStore.CachedUser | src/store/authStore.ts:123-126 | a cached profile is found exactly when the user key holds one, and it is that profile |
| AuthStore.LoadUser | src/store/authStore.ts:118-151 | with a token and a cached profile: authenticated with the fetched profile, or the cached one if the fetch fails; otherwise only loading ends; tokens are never set |
| AuthStore.Merge | src/store/authStore.ts:156 | every supplied field overrides, every other field is kept; an empty patch is the identity |
| AuthStore.UpdateUser | src/store/authStore.ts:153-160 | without a user nothing happens; otherwise the merged profile is shown and cached |
| AuthStore.ClearError | src/store/authStore.ts:162 | only the error is cleared |
| AuthStore.LoginThenRestart | src/store/authStore.ts:38-151 | a login survives a restart: the user is restored and authenticated while tokens stay null |
| AuthStore.LogoutThenRestart | src/store/authStore.ts:96-146 | after logout a restart finds no session and makes no profile request |
| AuthStore.MergeIdempotent | src/store/authStore.ts:156 | applying a patch twice equals applying it once |
| AuthStore.UpdateThenRestart | src/store/authStore.ts:118-160 | a profile edit survives a restart whose profile fetch fails |
| AuthStore.ClearErrorAfterFailedAttempt | src/store/authStore.ts:38-94 | clearing the error after a failed login or signup returns to the state the attempt started from, storage untouched; clearing twice is clearing once |
| ApiClient.HandleError | src/services/api/client.ts:100-122 | a server reply keeps its code and field errors and its message or the server fallback; no reply gives the network error; no request gives the generic error; never an empty message |
| ApiClient.ClassificationRecoverable | src/services/api/client.ts:100-122 | unless the server itself uses a reserved code, the normalized code tells network and unknown failures apart, in both directions |
| ApiClient.RefreshAccessToken | src/services/api/client.ts:67-92 | an in-flight refresh is shared, and a shared success is seen with its new access token stored; with no refresh token it fails without posting; otherwise it posts and stores the new access token on success; the owner's slot is cleared |
| ApiClient.DropTokens | src/services/api/client.ts:94-98 | exactly the two token slots are deleted |
| ApiClient.AttachToken | src/services/api/client.ts:28-37 | a non-empty stored token becomes the bearer header, otherwise the request is untouched |
| ApiClient.Send | src/services/api/client.ts:40-64 | at most two transmissions and one refresh, the second marked as retried; success passes through; any other failure, or a 401 already retried, is normalized |
| ApiClient.RefreshFailureLogsOut | src/services/api/client.ts:46-59 | a 401 whose refresh fails deletes both tokens and rethrows the refresh error without replay |
| ApiClient.RefreshSuccessReplaysOnce | src/services/api/client.ts:46-54 | a 401 whose refresh succeeds stores the token and replays once with it; the replay's outcome is the result |
| ApiClient.SharedRefreshReplaysWithNewToken | src/services/api/client.ts:46-54 | a 401 that joins a refresh already under way replays once with the token that refresh stored, and leaves the slot to its owner |
| ApiClient.Backoff | src/services/api/client.ts:133-135 | the k-th wait is the initial delay times 2^k |
| ApiClient.BackoffShift | src/services/api/client.ts:135 | waiting once and then doubling the delay gives the same waits as one more backoff step |
| ApiClient.WithRetry | src/services/api/client.ts:125-139 | at most retries+1 calls; every earlier call failed; the result is the last call's; a failure means every call was used; the waits double from the initial delay |
| ApiClient.FirstSuccess | src/services/api/client.ts:130-131 | the first successful call among the first n, if any |
| ApiClient.DefaultRetryPolicy | src/services/api/client.ts:125-139 | by default a read returns the first success within four calls, otherwise the fourth failure; the waits are 1000, 2000 and 4000 ms |
| ApiClient.Call | src/services/api/client.ts:142-167 | `get` retries: it returns the first success within four calls, else the fourth failure after four calls; every other verb calls once |
| Validation.Repeat | src/utils/validation.ts:51 | a pattern of n copies of one character class |
| Validation.Match | src/utils/validation.ts:32 | the anchored matcher accepts exactly the strings of the pattern's length whose characters are each in their class |
| Validation.Search | src/utils/validation.ts:38-40 | the unanchored matcher accepts exactly the strings containing a character of the class |
| Validation.PhoneRule | src/utils/validation.ts:32 | a valid phone has 10 characters, starts with 6 to 9 and is otherwise digits, in both directions |
| Validation.PincodeRule | src/utils/validation.ts:79-81 | a valid pincode has 6 characters, starts with 1 to 9 and is otherwise digits, in both directions |
| Validation.OtpRule | src/utils/validation.ts:47-52 | a valid code is exactly six digits, in both directions |
| Validation.PasswordRule | src/utils/validation.ts:35-40 | a strong password has at least 8 characters with an upper-case letter, a lower-case letter and a digit, in both directions |
| Validation.Check | src/utils/validation.ts:12 | one rule reports no issue exactly when it holds, else its one message |
| Validation.PasswordIssues | src/utils/validation.ts:35-40 | no password issue exactly when the password is strong |
| Validation.NameIssues | src/utils/validation.ts:20-23 | no name issue exactly when the name has 2 to 50 characters |
| Validation.LoginIssues | src/utils/validation.ts:9-17 | the login form is clean exactly when the e-mail is present and well formed and the password has 8 characters |
| Validation.SignupFieldIssues | src/utils/validation.ts:19-41 | the signup fields are clean exactly when name, e-mail, optional phone and password rules hold; no field issue is on the confirmation |
| Validation.WithMatch | src/utils/validation.ts:42-45 | the mismatch issue is reported on the confirmation field exactly when the passwords differ |
| Validation.SignupIssues | src/utils/validation.ts:19-45 | the signup form is clean exactly when every rule holds and the passwords match; the mismatch is reported exactly when they differ |
| Validation.OtpIssues | src/utils/validation.ts:47-52 | the code form is clean exactly when the code is six digits |
| Validation.AddressIssues | src/utils/validation.ts:55-84 | the address form is clean exactly when every field is within its bounds and the phone and pincode match their patterns |
| Validation.IsDefault | src/utils/validation.ts:83 | an absent default flag reads as false |
| Validation.ReviewIssues | src/utils/validation.ts:87-100 | the review form is clean exactly when the rating is 1 to 5, the title at most 100 and the comment 10 to 1000 characters |
| Validation.ProfileIssues | src/utils/validation.ts:103-115 | the profile form is clean exactly when the name, the e-mail and the optional phone are valid |
| Validation.ChangePasswordIssues | src/utils/validation.ts:118-132 | clean exactly when the current password is given, the new one is strong and the confirmation matches; the mismatch is reported exactly when they differ |
| Validation.EmptyPhoneDiffers | src/utils/validation.ts:28-34 | an empty phone passes the signup form but fails the phone pattern |
| QueryKeys.ExtendIsPrefix | src/hooks/useProducts.ts:12-16 | a key built by appending starts with the key it extends, properly when something was appended |
| QueryKeys.HitConcat | src/hooks/useOrders.ts:85-89 | invalidating two key lists reaches a key exactly when one of them does |
| QueryKeys.NextPageParam | src/hooks/useProducts.ts:34-35 | a next page exists exactly when the server reports more, and it is the page after the current one |
| QueryKeys.PagesFetched | src/hooks/useProducts.ts:30-37 | scrolling fetches at most one page per scroll, starting with the first page asked for |
| QueryKeys.FaithfulWalk | src/hooks/useProducts.ts:32-36 | against a server that echoes pages, scrolling asks for consecutive pages, each once, and stops at the last |
| QueryKeys.ScrollToEnd | src/hooks/useProducts.ts:32-36 | scrolling to the end fetches pages 1 to totalPages |
| ProductQueries.KeyOf | src/hooks/useProducts.ts:10-24 | every product key begins with "products" |
| ProductQueries.KeyInjective | src/hooks/useProducts.ts:10-24 | distinct factory entries have distinct keys |
| ProductQueries.AllIsPrefix | src/hooks/useProducts.ts:11-23 | `all` is a prefix of every product key, properly of all but itself |
| ProductQueries.ListsAndDetails | src/hooks/useProducts.ts:12-16 | `lists()` reaches exactly the list entries and `details()` exactly the detail entries, each a proper prefix of the entries below it |
| ProductQueries.OptionsOf | src/hooks/useProducts.ts:29-131 | lists and search page by 20 and reviews by 10, all from page 1; search runs only from 2 characters; detail, similar and review queries need a non-empty id |
| ProductQueries.EnabledKeysHaveIds | src/hooks/useProducts.ts:43-130 | no running query is keyed by an empty identifier; an id-keyed query is off exactly when its id is empty |
| ProductQueries.KeysIgnoreLimitAndSearchFilters | src/hooks/useProducts.ts:54-116 | search keys ignore the filters, and the trending, best-seller, new-arrival and similar keys ignore the limit |
| ProductQueries.AddReviewInvalidates | src/hooks/useProducts.ts:147-156 | a posted review invalidates two keys; which cached entries they reach is stated by `AddReviewHitsExactly` |
| ProductQueries.AddReviewHitsExactly | src/hooks/useProducts.ts:147-156 | a posted review invalidates exactly that product's reviews and detail, and nothing outside the product keys |
| OrderQueries.KeyOf | src/hooks/useOrders.ts:10-17 | every order key begins with "orders" |
| OrderQueries.KeyShapes | src/hooks/useOrders.ts:12-16 | `list()` equals `lists()` = ["orders","list"]; detail extends `details()` by the id; tracking is ["orders","tracking",id], outside the details |
| OrderQueries.OptionsOf | src/hooks/useOrders.ts:22-53 | only the order list pages, by 10 from page 1; detail and tracking need a non-empty id |
| OrderQueries.Invalidates | src/hooks/useOrders.ts:67-106 | each order mutation invalidates two keys; the entries they reach are stated by `CreateHitsExactly` and `CancelOrReturnHitsExactly` |
| OrderQueries.ListsReaches | src/hooks/useOrders.ts:12-13 | `lists()` reaches exactly the list entries |
| OrderQueries.DetailReaches | src/hooks/useOrders.ts:14-15 | `detail(id)` reaches exactly that order's detail |
| OrderQueries.CreateHitsExactly | src/hooks/useOrders.ts:67-72 | placing an order invalidates exactly the order lists and everything under the cart key |
| OrderQueries.CancelOrReturnHitsExactly | src/hooks/useOrders.ts:79-108 | cancel and return invalidate exactly that order's detail and the lists, not its tracking |
| AddressQueries.KeyOf | src/hooks/useAddress.ts:10-16 | every address key begins with "addresses" |
| AddressQueries.KeyShapes | src/hooks/useAddress.ts:12-15 | `list()` equals `lists()`; detail extends `details()` by the id |
| AddressQueries.PincodeKey | src/hooks/useAddress.ts:102 | the pincode lookup key lies outside the address keys |
| AddressQueries.OptionsOf | src/hooks/useAddress.ts:21-106 | the list always runs; a detail needs a non-empty id; a pincode lookup runs exactly when the pincode has 6 characters |
| AddressQueries.PincodeGateWeakerThanForm | src/hooks/useAddress.ts:104 | every pincode the form accepts enables the lookup, but six letters enable it too |
| AddressQueries.Invalidates | src/hooks/useAddress.ts:42-95 | each address mutation invalidates one or two keys; the entries they reach are stated by `MutationHitsExactly` |
| AddressQueries.MutationHitsExactly | src/hooks/useAddress.ts:42-95 | add, delete and set-default invalidate exactly the lists; update also that address's detail; pincode lookups are never touched |

## Left out

- Storage and transport I/O. AsyncStorage, SecureStore and axios are abstract maps and outcome parameters. JSON serialization and parse failures cannot occur because the cache holds typed values. Storage write failures are not modelled.
- Concurrency:
  - the interleaving of concurrent 401s that share one refresh (the shared slot is a parameter of a single request);
  - races between overlapping optimistic mutations;
  - the parallel start-up loads.
  Every action is one atomic transition.
- Floating point. Money is exact `real`, so IEEE rounding of `price * quantity` and `subtotal * 0.18` is not modelled.
- Time and randomness. Temporary ids and timestamps are parameters, and retry waits are recorded, not slept.
- Query refetch intervals and stale times.
- ApiClient.Send and ApiClient.WithRetry are modelled separately. A `get` that meets a 401 runs the refresh path inside each retry attempt, and that composition is not stated as one contract.
- ApiClient.Send: the replayed request's own failure is normalized. The replay goes through the same interceptor, so a 401 on it falls into the normalize branch.
- Validation.LoginIssues, Validation.SignupIssues, Validation.ProfileIssues: the e-mail format check belongs to the validation library and is an input.
- String lengths count Dafny characters, not UTF-16 code units. This applies to every length rule in the `Validation` issue lists, to the two-character search gate in `ProductQueries.OptionsOf` and to the six-character pincode gate in `AddressQueries.OptionsOf`. Text outside the Basic Multilingual Plane is therefore measured differently from the source.
- AuthStore.Merge: a `Partial<User>` field given explicitly as `undefined` is treated as absent. In the code it would overwrite the field with `undefined`.
- The client's own token writes during a store's request. Each store step models only the store's own storage writes, and its remote outcome is a parameter. Every request also passes through the client's 401 handling (`ApiClient.Send`): a successful refresh rewrites `auth_token`, and a failed one deletes both tokens. Two consequences follow that the store contracts do not state. First, when `loadUser`'s profile request meets a 401 and the refresh fails, the tokens are deleted, yet the cached user is still installed with `isAuthenticated` true (`AuthStore.LoadUser` keeps storage unchanged). Second, a login rejected with 401 and no stored refresh token records the refresh's `'No refresh token'` message as its error.
- Invalidation marks every matched cache entry stale, and React Query refetches only the entries some screen is using. The `*HitsExactly` lemmas state which entries are marked. When a refetch happens is not modelled.
- QueryKeys.Hit: React Query matches object segments partially. Every invalidated key here consists of plain strings only, so prefix equality is the same relation.
- The data hooks' query functions, the endpoint wrappers, the UI components, the theme tokens and the `useCommon` hooks are not part of this model. They are presentational code or thin wrappers with no logic of their own.

=== FILE: address_queries.dfy ===
/** The address query keys, the options of each address query and the
    invalidation done by the address mutations (src/hooks/useAddress.ts). */
module AddressQueries {
  import opened Wrappers
  import opened QueryKeys
  import Validation

  /** The entries of the `addressKeys` factory. */
  datatype AddressKey =
    | All
    | Lists
    | List
    | Details
    | Detail(id: string)

  function Rank(k: AddressKey): nat {
    match k
    case All => 0
    case Lists | Details => 1
    case List | Detail(_) => 2
  }

  function KeyOf(k: AddressKey): (key: Key)
    ensures |key| >= 1 && key[0] == Name("addresses")
    decreases Rank(k)
  {
    match k
    case All => [Name("addresses")]
    case Lists => KeyOf(All) + [Name("list")]
    case List => KeyOf(Lists)
    case Details => KeyOf(All) + [Name("detail")]
    case Detail(id) => KeyOf(Details) + [Name(id)]
  }

  lemma KeyShapes(id: string)
    ensures KeyOf(List) == KeyOf(Lists) == [Name("addresses"), Name("list")]
    ensures KeyOf(Detail(id)) == KeyOf(Details) + [Name(id)]
  {
  }

  /** The pincode lookup is cached outside the factory. */
  function PincodeKey(pincode: string): (key: Key)
    ensures |key| == 2 && key[0] != Name("addresses")
  {
    [Name("verify-pincode"), Name(pincode)]
  }

  datatype AddressQuery = Addresses | Address(id: string) | VerifyPincode(pincode: string)

  datatype QueryOptions = QueryOptions(key: Key, enabled: bool)

  function OptionsOf(q: AddressQuery): (o: QueryOptions)
    ensures q.Addresses? ==> o.enabled && o.key == KeyOf(List)
    ensures q.Address? ==> o.key == KeyOf(Detail(q.id)) && (o.enabled <==> q.id != "")
    ensures q.VerifyPincode? ==> o.key == PincodeKey(q.pincode) && (o.enabled <==> |q.pincode| == 6)
  {
    match q
    case Addresses => QueryOptions(KeyOf(List), true)
    case Address(id) => QueryOptions(KeyOf(Detail(id)), id != "")
    case VerifyPincode(p) => QueryOptions(PincodeKey(p), |p| == 6)
  }

  /** A postal code the address form accepts always switches the lookup on;
      the gate only checks the length, so six letters switch it on too. */
  lemma PincodeGateWeakerThanForm(p: string)
    ensures Validation.ValidPincode(p) ==> OptionsOf(VerifyPincode(p)).enabled
    ensures OptionsOf(VerifyPincode("abcdef")).enabled && !Validation.ValidPincode("abcdef")
  {
    Validation.PincodeRule(p);
    Validation.PincodeRule("abcdef");
  }

  // --------------------------------------------------------- invalidation

  datatype AddressMutation =
    | AddAddress
    | UpdateAddress(id: string)
    | DeleteAddress(id: string)
    | SetDefaultAddress(id: string)

  function Invalidates(m: AddressMutation): (r: seq<Key>)
    ensures 1 <= |r| <= 2
  {
    match m
    case UpdateAddress(id) => [KeyOf(Detail(id)), KeyOf(Lists)]
    case _ => [KeyOf(Lists)]
  }

  /** Adding, deleting or re-defaulting invalidates only the address lists (a
      deleted address's own detail entry stays cached); an update also
      invalidates that address's detail. The pincode lookups are never touched. */
  lemma MutationHitsExactly(m: AddressMutation, k: AddressKey, pincode: string)
    ensures Hit(Invalidates(m), KeyOf(k)) <==> k.Lists? || k.List? || (m.UpdateAddress? && k == Detail(m.id))
    ensures !Hit(Invalidates(m), PincodeKey(pincode))
  {
    var r := Invalidates(m);
    if Hit(r, KeyOf(k)) {
      var i :| 0 <= i < |r| && IsPrefix(r[i], KeyOf(k));
      if r[i] == KeyOf(Lists) {
        assert KeyOf(k)[1] == Name("list");
      } else {
        assert KeyOf(k)[1] == Name("detail");
        assert KeyOf(k)[2] == Name(m.id);
      }
    }
    if k.Lists? || k.List? {
      assert IsPrefix(r[|r| - 1], KeyOf(k));
    }
    if m.UpdateAddress? && k == Detail(m.id) {
      assert IsPrefix(r[0], KeyOf(k));
    }
  }
}

=== FILE: api_client.dfy ===
/** The HTTP client policy (src/services/api/client.ts): bearer-token
    attachment, the one-shot replay after a 401 with a token refresh, error
    normalization, and bounded retry with a doubling delay for reads. The
    transport is an oracle: the outcome of the k-th attempt is a parameter. */
module ApiClient {
  import opened Wrappers
  import opened Persistence

  // Client configuration (src/constants/index.ts:9-14, 83-89)
  const RETRY_ATTEMPTS: nat := 3
  const RETRY_DELAY: int := 1000
  const NETWORK_ERROR_MESSAGE: string := "Network error. Please check your connection."
  const SERVER_ERROR_MESSAGE: string := "Server error. Please try again later."
  const GENERIC_ERROR_MESSAGE: string := "Something went wrong. Please try again."

  // ------------------------------------------------------ error normalization

  /** The JSON body of an error response. An empty message counts as missing. */
  datatype ErrorBody = ErrorBody(message: Option<string>, code: Option<string>, errors: Option<map<string, seq<string>>>)

  datatype ErrorResponse = ErrorResponse(status: int, data: Option<ErrorBody>)

  /** A transport failure: the response if one arrived, and whether the request
      left the device. */
  datatype HttpError = HttpError(response: Option<ErrorResponse>, requestSent: bool)

  /** The normalized error every caller of the client sees. */
  datatype ApiError = ApiError(message: string, code: Option<string>, errors: Option<map<string, seq<string>>>)

  /** The three kinds of failure the client distinguishes. */
  datatype ErrorKind = ServerError | NetworkError | UnknownError

  function Kind(e: HttpError): ErrorKind {
    if e.response.Some? then ServerError
    else if e.requestSent then NetworkError
    else UnknownError
  }

  function HandleError(e: HttpError): (r: ApiError)
    ensures r.message != ""
    ensures Kind(e) == ServerError ==> (
      var body := e.response.value.data;
      && r.code == (if body.Some? then body.value.code else None)
      && r.errors == (if body.Some? then body.value.errors else None)
      && (body.Some? && body.value.message.Some? && body.value.message.value != "" ==> r.message == body.value.message.value)
      && (body.None? || body.value.message.None? || body.value.message == Some("") ==> r.message == SERVER_ERROR_MESSAGE))
    ensures Kind(e) == NetworkError ==> r == ApiError(NETWORK_ERROR_MESSAGE, Some("NETWORK_ERROR"), None)
    ensures Kind(e) == UnknownError ==> r == ApiError(GENERIC_ERROR_MESSAGE, Some("UNKNOWN_ERROR"), None)
  {
    match e.response
    case Some(resp) =>
      var body := resp.data;
      var message := if body.Some? && body.value.message.Some? && body.value.message.value != "" then body.value.message.value
                     else SERVER_ERROR_MESSAGE;
      ApiError(message, if body.Some? then body.value.code else None, if body.Some? then body.value.errors else None)
    case None =>
      if e.requestSent then ApiError(NETWORK_ERROR_MESSAGE, Some("NETWORK_ERROR"), None)
      else ApiError(GENERIC_ERROR_MESSAGE, Some("UNKNOWN_ERROR"), None)
  }

  /** The normalized code tells the three kinds apart whenever the server did
      not itself answer with one of the two reserved codes. */
  lemma ClassificationRecoverable(e: HttpError)
    requires e.response.Some? ==> (var body := e.response.value.data;
      body.None? || (body.value.code != Some("NETWORK_ERROR") && body.value.code != Some("UNKNOWN_ERROR")))
    ensures HandleError(e).code == Some("NETWORK_ERROR") <==> Kind(e) == NetworkError
    ensures HandleError(e).code == Some("UNKNOWN_ERROR") <==> Kind(e) == UnknownError
  {
  }

  // --------------------------------------------------- refresh and the 401 path

  /** Why a refresh failed: no stored refresh token, or the refresh call itself
      was rejected. This error reaches the caller as it is, unnormalized. */
  datatype RefreshError = NoRefreshToken | RefreshRejected(cause: HttpError)

  /** The shared in-flight refresh: absent, or the outcome it will settle with. */
  type RefreshSlot = Option<Result<string, RefreshError>>

  datatype RefreshRun = RefreshRun(result: Result<string, RefreshError>, storage: Storage, slot: RefreshSlot, posted: bool)

  /** `refreshAccessToken`. An occupied slot is shared and its owner clears it;
      a shared success has already been stored by the owner before the shared
      promise settles, so the joining request sees the new access token.
      Otherwise the stored refresh token is posted, a new access token is
      stored, and the slot is cleared on completion. */
  function RefreshAccessToken(slot: RefreshSlot, storage: Storage, post: Result<string, HttpError>): (r: RefreshRun)
    ensures slot.Some? ==> r.result == slot.value && r.slot == slot && !r.posted
    ensures slot.Some? && slot.value.Success? ==> r.storage == SetSecure(storage, AUTH_TOKEN, slot.value.value)
    ensures slot.Some? && slot.value.Failure? ==> r.storage == storage
    ensures slot.None? ==> r.slot == None
    ensures slot.None? && SecureToken(storage, REFRESH_TOKEN).None? ==>
      r == RefreshRun(Failure(NoRefreshToken), storage, None, false)
    ensures slot.None? && SecureToken(storage, REFRESH_TOKEN).Some? ==> (
      && r.posted
      && (post.Success? ==> r.result == Success(post.value) && r.storage == SetSecure(storage, AUTH_TOKEN, post.value))
      && (post.Failure? ==> r.result == Failure(RefreshRejected(post.error)) && r.storage == storage))
  {
    if slot.Some? then
      if slot.value.Success? then RefreshRun(slot.value, SetSecure(storage, AUTH_TOKEN, slot.value.value), slot, false)
      else RefreshRun(slot.value, storage, slot, false)
    else if SecureToken(storage, REFRESH_TOKEN).None? then RefreshRun(Failure(NoRefreshToken), storage, None, false)
    else
      match post
      case Success(token) => RefreshRun(Success(token), SetSecure(storage, AUTH_TOKEN, token), None, true)
      case Failure(e) => RefreshRun(Failure(RefreshRejected(e)), storage, None, true)
  }

  /** The client's private `logout`: both tokens are deleted. */
  function DropTokens(storage: Storage): (s: Storage)
    ensures AUTH_TOKEN !in s.secure && REFRESH_TOKEN !in s.secure
    ensures s.secure == storage.secure - {AUTH_TOKEN, REFRESH_TOKEN} && s.cache == storage.cache
  {
    DeleteSecure(DeleteSecure(storage, AUTH_TOKEN), REFRESH_TOKEN)
  }

  /** The part of a request the interceptors touch. */
  datatype RequestConfig = RequestConfig(retried: bool, authorization: Option<string>)

  /** The request interceptor: a non-empty stored access token becomes the
      bearer credential; otherwise the header is left as it is. */
  function AttachToken(req: RequestConfig, storage: Storage): (r: RequestConfig)
    ensures r.retried == req.retried
    ensures SecureToken(storage, AUTH_TOKEN).Some? ==> r.authorization == Some("Bearer " + SecureToken(storage, AUTH_TOKEN).value)
    ensures SecureToken(storage, AUTH_TOKEN).None? ==> r == req
  {
    match SecureToken(storage, AUTH_TOKEN)
    case Some(token) => req.(authorization := Some("Bearer " + token))
    case None => req
  }

  function IsUnauthorized(e: HttpError): bool {
    e.response.Some? && e.response.value.status == 401
  }

  /** What a caller of the client sees when a request fails. */
  datatype ClientError = Normalized(api: ApiError) | RefreshFailed(refresh: RefreshError)

  datatype Dispatch<T> = Dispatch(
    result: Result<T, ClientError>,
    storage: Storage,
    slot: RefreshSlot,
    sent: seq<RequestConfig>,
    refreshes: nat)

  /** One request through both interceptors. `server(k)` is the outcome of the
      k-th transmission of this request; `post` the outcome of a refresh call.
      A 401 on a request not yet marked is marked, refreshed and replayed once;
      every other failure is normalized. */
  function Send<T>(req: RequestConfig, attempt: nat, storage: Storage, slot: RefreshSlot,
                   server: nat -> Result<T, HttpError>, post: Result<string, HttpError>): (d: Dispatch<T>)
    ensures 1 <= |d.sent| <= (if req.retried then 1 else 2)
    ensures d.sent[0] == AttachToken(req, storage)
    ensures |d.sent| == 2 ==> !d.sent[0].retried && d.sent[1].retried
    ensures d.refreshes <= 1 && (req.retried ==> d.refreshes == 0)
    ensures server(attempt).Success? ==> d == Dispatch(Success(server(attempt).value), storage, slot, [AttachToken(req, storage)], 0)
    ensures server(attempt).Failure? && (req.retried || !IsUnauthorized(server(attempt).error)) ==>
      d == Dispatch(Failure(Normalized(HandleError(server(attempt).error))), storage, slot, [AttachToken(req, storage)], 0)
    decreases if req.retried then 0 else 1
  {
    var sent := AttachToken(req, storage);
    match server(attempt)
    case Success(v) => Dispatch(Success(v), storage, slot, [sent], 0)
    case Failure(e) =>
      if IsUnauthorized(e) && !sent.retried then
        var marked := sent.(retried := true);
        var refresh := RefreshAccessToken(slot, storage, post);
        match refresh.result
        case Success(token) =>
          var replayReq := if token != "" then marked.(authorization := Some("Bearer " + token)) else marked;
          var replay := Send(replayReq, attempt + 1, refresh.storage, refresh.slot, server, post);
          Dispatch(replay.result, replay.storage, replay.slot, [sent] + replay.sent, 1)
        case Failure(re) =>
          Dispatch(Failure(RefreshFailed(re)), DropTokens(refresh.storage), refresh.slot, [sent], 1)
      else
        Dispatch(Failure(Normalized(HandleError(e))), storage, slot, [sent], 0)
  }

  /** A 401 whose refresh fails tears the session down: both tokens are gone
      and the caller receives the refresh error itself. */
  lemma RefreshFailureLogsOut<T>(storage: Storage, server: nat -> Result<T, HttpError>, post: Result<string, HttpError>)
    requires server(0).Failure? && IsUnauthorized(server(0).error)
    requires SecureToken(storage, REFRESH_TOKEN).None? || post.Failure?
    ensures var d := Send(RequestConfig(false, None), 0, storage, None, server, post);
      && AUTH_TOKEN !in d.storage.secure && REFRESH_TOKEN !in d.storage.secure
      && d.result.Failure? && d.result.error.RefreshFailed?
      && d.result.error.refresh == (if SecureToken(storage, REFRESH_TOKEN).None? then NoRefreshToken else RefreshRejected(post.error))
      && |d.sent| == 1 && d.slot == None
  {
  }

  /** A 401 whose refresh succeeds replays the request exactly once, carrying
      the new token, and leaves the slot empty. */
  lemma RefreshSuccessReplaysOnce<T>(storage: Storage, server: nat -> Result<T, HttpError>, token: string)
    requires server(0).Failure? && IsUnauthorized(server(0).error)
    requires SecureToken(storage, REFRESH_TOKEN).Some? && token != ""
    ensures var d := Send(RequestConfig(false, None), 0, storage, None, server, Success(token));
      && |d.sent| == 2 && d.sent[1].authorization == Some("Bearer " + token)
      && SecureToken(d.storage, AUTH_TOKEN) == Some(token)
      && d.slot == None && d.refreshes == 1
      && (server(1).Success? ==> d.result == Success(server(1).value))
      && (server(1).Failure? ==> d.result == Failure(Normalized(HandleError(server(1).error))))
  {
    var refreshed := SetSecure(storage, AUTH_TOKEN, token);
    assert SecureToken(refreshed, AUTH_TOKEN) == Some(token);
  }

  /** A 401 that joins a refresh already under way replays once with the token
      that refresh stored, not with the one the request first carried, and
      leaves the slot to its owner. */
  lemma SharedRefreshReplaysWithNewToken<T>(storage: Storage, server: nat -> Result<T, HttpError>,
                                            token: string, post: Result<string, HttpError>)
    requires server(0).Failure? && IsUnauthorized(server(0).error)
    requires token != ""
    ensures var d := Send(RequestConfig(false, None), 0, storage, Some(Success(token)), server, post);
      && |d.sent| == 2 && d.sent[1].authorization == Some("Bearer " + token)
      && SecureToken(d.storage, AUTH_TOKEN) == Some(token)
      && d.slot == Some(Success(token)) && d.refreshes == 1
  {
    var refreshed := SetSecure(storage, AUTH_TOKEN, token);
    assert SecureToken(refreshed, AUTH_TOKEN) == Some(token);
  }

  // ------------------------------------------------------------- retry

  /** A read with retries: the final outcome, how many times the function ran,
      and the waits before each retry in milliseconds. */
  datatype Retried<T, E> = Retried(result: Result<T, E>, attempts: nat, waits: seq<int>)

  /** 2 to the power `k`. */
  function Pow2(k: nat): (p: nat)
    ensures p >= 1
  {
    if k == 0 then 1 else 2 * Pow2(k - 1)
  }

  /** The waits of `n` retries starting from `delay`: `delay * 2^k` before the
      k-th retry. */
  function Backoff(delay: int, n: nat): (w: seq<int>)
    ensures |w| == n
    ensures forall k :: 0 <= k < n ==> w[k] == delay * Pow2(k)
  {
    seq(n, k requires 0 <= k => delay * Pow2(k))
  }

  /** Doubling the delay for the rest of the retries shifts the backoff by one. */
  lemma BackoffShift(delay: int, n: nat)
    ensures [delay] + Backoff(delay * 2, n) == Backoff(delay, n + 1)
  {
    var l := [delay] + Backoff(delay * 2, n);
    var r := Backoff(delay, n + 1);
    forall k | 0 <= k < n + 1
      ensures l[k] == r[k]
    {
      if k > 0 {
        assert l[k] == (delay * 2) * Pow2(k - 1);
        assert Pow2(k) == 2 * Pow2(k - 1);
      }
    }
  }

  /** `withRetry(fn, retries, delay)` where the `first`-th and later calls of
      `fn` settle as `outcome` says. */
  function WithRetry<T, E>(outcome: nat -> Result<T, E>, first: nat, retries: int, delay: int): (r: Retried<T, E>)
    ensures 1 <= r.attempts <= (if retries > 0 then retries else 0) + 1
    ensures r.waits == Backoff(delay, r.attempts - 1)
    ensures forall j :: first <= j < first + r.attempts - 1 ==> outcome(j).Failure?
    ensures r.result == outcome(first + r.attempts - 1)
    ensures r.result.Failure? ==> r.attempts == (if retries > 0 then retries else 0) + 1
    decreases if retries > 0 then retries else 0
  {
    match outcome(first)
    case Success(v) => Retried(Success(v), 1, [])
    case Failure(e) =>
      if retries > 0 then
        var rest := WithRetry(outcome, first + 1, retries - 1, delay * 2);
        BackoffShift(delay, rest.attempts - 1);
        Retried(rest.result, rest.attempts + 1, [delay] + rest.waits)
      else
        Retried(Failure(e), 1, [])
  }

  /** The index of the first successful call among `count` calls, if any. */
  function FirstSuccess<T, E>(outcome: nat -> Result<T, E>, count: nat): (r: Option<nat>)
    ensures r.Some? ==> r.value < count && outcome(r.value).Success?
    ensures r.Some? ==> forall k :: 0 <= k < r.value ==> outcome(k).Failure?
    ensures r.None? ==> forall k :: 0 <= k < count ==> outcome(k).Failure?
  {
    if count == 0 then None
    else
      var earlier := FirstSuccess(outcome, count - 1);
      if earlier.Some? then earlier
      else if outcome(count - 1).Success? then Some(count - 1)
      else None
  }

  /** The default read policy returns the first success within four calls, or
      the last failure after four; the waits are 1000, 2000 and 4000 ms. */
  lemma DefaultRetryPolicy<T, E>(outcome: nat -> Result<T, E>)
    ensures var r := WithRetry(outcome, 0, RETRY_ATTEMPTS, RETRY_DELAY);
      && r.attempts <= 4
      && r.waits == [1000, 2000, 4000][..r.attempts - 1]
      && (FirstSuccess(outcome, 4).Some? ==>
            r.attempts == FirstSuccess(outcome, 4).value + 1 && r.result == outcome(FirstSuccess(outcome, 4).value))
      && (FirstSuccess(outcome, 4).None? ==> r.attempts == 4 && r.result == outcome(3))
  {
    var r := WithRetry(outcome, 0, RETRY_ATTEMPTS, RETRY_DELAY);
    assert Pow2(0) == 1 && Pow2(1) == 2 && Pow2(2) == 4;
    assert Backoff(RETRY_DELAY, 3) == [1000, 2000, 4000];
  }

  /** Which client methods retry: only reads. */
  datatype Verb = Get | Post | Put | Patch | Delete

  /** A call through the client's public methods: `get` runs under the default
      retry policy, every other verb runs its request exactly once. */
  function Call<T, E>(verb: Verb, outcome: nat -> Result<T, E>): (r: Retried<T, E>)
    ensures verb != Get ==> r == Retried(outcome(0), 1, [])
    ensures verb == Get ==> r.attempts <= RETRY_ATTEMPTS + 1
    ensures verb == Get && FirstSuccess(outcome, RETRY_ATTEMPTS + 1).Some? ==>
      r.result == outcome(FirstSuccess(outcome, RETRY_ATTEMPTS + 1).value)
    ensures verb == Get && FirstSuccess(outcome, RETRY_ATTEMPTS + 1).None? ==>
      r.attempts == RETRY_ATTEMPTS + 1 && r.result == outcome(RETRY_ATTEMPTS)
  {
    DefaultRetryPolicy(outcome);
    if verb == Get then WithRetry(outcome, 0, RETRY_ATTEMPTS, RETRY_DELAY)
    else Retried(outcome(0), 1, [])
  }
}

=== FILE: auth_store.dfy ===
/** The authentication store (src/store/authStore.ts): a small state machine
    over the signed-in user and session tokens, persisted to the secure
    credential store (tokens) and the cache (user profile). */
module AuthStore {
  import opened Wrappers
  import opened Types
  import opened Persistence

  datatype AuthState = AuthState(
    user: Option<User>,
    tokens: Option<AuthTokens>,
    isAuthenticated: bool,
    isLoading: bool,
    error: Option<string>)

  const INITIAL: AuthState := AuthState(None, None, false, false, None)

  /** The payload of a successful login or signup. */
  datatype AuthResponse = AuthResponse(user: User, tokens: AuthTokens)

  datatype AuthRequest = LoginRequest | SignupRequest | LogoutRequest | ProfileRequest

  datatype Step = Step(state: AuthState, storage: Storage, requests: seq<AuthRequest>, thrown: Option<Error>)

  /** The storage after a successful login or signup: both tokens in the secure
      store and the profile in the cache. */
  function SaveSession(storage: Storage, response: AuthResponse): (s: Storage)
    ensures s.secure.Keys == storage.secure.Keys + {AUTH_TOKEN, REFRESH_TOKEN}
    ensures s.secure[AUTH_TOKEN] == response.tokens.accessToken
    ensures s.secure[REFRESH_TOKEN] == response.tokens.refreshToken
    ensures USER_DATA in s.cache && s.cache[USER_DATA] == UserData(response.user)
    ensures s.cache - {USER_DATA} == storage.cache - {USER_DATA}
  {
    var withAccess := SetSecure(storage, AUTH_TOKEN, response.tokens.accessToken);
    var withRefresh := SetSecure(withAccess, REFRESH_TOKEN, response.tokens.refreshToken);
    Put(withRefresh, USER_DATA, UserData(response.user))
  }

  /** The shared body of `login` and `signup`. */
  function Authenticate(st: AuthState, storage: Storage, request: AuthRequest,
                        response: Result<AuthResponse, Error>, fallback: string): (r: Step)
    ensures r.requests == [request]
    ensures response.Success? ==> (
      && r.state == AuthState(Some(response.value.user), Some(response.value.tokens), true, false, None)
      && r.storage == SaveSession(storage, response.value)
      && r.thrown == None)
    ensures response.Failure? ==> (
      && r.state == st.(isLoading := false, error := Some(MessageOr(response.error, fallback)))
      && r.storage == storage
      && r.thrown == Some(response.error))
  {
    var pending := st.(isLoading := true, error := None);
    match response
    case Success(payload) =>
      Step(pending.(user := Some(payload.user), tokens := Some(payload.tokens), isAuthenticated := true, isLoading := false),
           SaveSession(storage, payload), [request], None)
    case Failure(e) =>
      Step(pending.(error := Some(MessageOr(e, fallback)), isLoading := false), storage, [request], Some(e))
  }

  function Login(st: AuthState, storage: Storage, response: Result<AuthResponse, Error>): (r: Step)
    ensures response.Success? ==> (r.state.isAuthenticated && r.state.user == Some(response.value.user)
      && r.state.tokens == Some(response.value.tokens) && !r.state.isLoading)
    ensures response.Failure? ==> (r.state.error == Some(MessageOr(response.error, "Login failed"))
      && r.state.user == st.user && r.state.tokens == st.tokens
      && r.state.isAuthenticated == st.isAuthenticated && !r.state.isLoading && r.thrown == Some(response.error))
  {
    Authenticate(st, storage, LoginRequest, response, "Login failed")
  }

  function Signup(st: AuthState, storage: Storage, response: Result<AuthResponse, Error>): (r: Step)
    ensures response.Success? ==> (r.state.isAuthenticated && r.state.user == Some(response.value.user)
      && r.state.tokens == Some(response.value.tokens) && !r.state.isLoading)
    ensures response.Failure? ==> (r.state.error == Some(MessageOr(response.error, "Signup failed"))
      && r.state.user == st.user && r.state.tokens == st.tokens
      && r.state.isAuthenticated == st.isAuthenticated && !r.state.isLoading && r.thrown == Some(response.error))
  {
    Authenticate(st, storage, SignupRequest, response, "Signup failed")
  }

  /** `logout`: the remote call is best effort; the teardown is unconditional
      and leaves `isLoading` alone. */
  function Logout(st: AuthState, storage: Storage, response: Outcome<Error>): (r: Step)
    ensures r.state == st.(user := None, tokens := None, isAuthenticated := false, error := None)
    ensures AUTH_TOKEN !in r.storage.secure && REFRESH_TOKEN !in r.storage.secure
    ensures USER_DATA !in r.storage.cache && CART_DATA !in r.storage.cache && WISHLIST_DATA !in r.storage.cache
    ensures r.storage.secure == storage.secure - {AUTH_TOKEN, REFRESH_TOKEN}
    ensures r.storage.cache == storage.cache - {USER_DATA, CART_DATA, WISHLIST_DATA}
    ensures r.requests == [LogoutRequest] && r.thrown == None
  {
    var s1 := DeleteSecure(DeleteSecure(storage, AUTH_TOKEN), REFRESH_TOKEN);
    var s2 := Remove(Remove(Remove(s1, USER_DATA), CART_DATA), WISHLIST_DATA);
    Step(st.(user := None, tokens := None, isAuthenticated := false, error := None), s2, [LogoutRequest], None)
  }

  /** The profile held in the cache, if any. */
  function CachedUser(storage: Storage): (r: Option<User>)
    ensures r.Some? <==> USER_DATA in storage.cache && storage.cache[USER_DATA].UserData?
    ensures r.Some? ==> r.value == storage.cache[USER_DATA].user
  {
    if USER_DATA in storage.cache && storage.cache[USER_DATA].UserData? then Some(storage.cache[USER_DATA].user) else None
  }

  /** `loadUser` at start-up: with both a token and a cached profile, the
      session is restored with the fetched profile, or the cached one when the
      fetch fails; otherwise only the loading flag is reset. Tokens are never
      set here. */
  function LoadUser(st: AuthState, storage: Storage, profile: Result<User, Error>): (r: Step)
    ensures r.storage == storage && r.thrown == None
    ensures SecureToken(storage, AUTH_TOKEN).Some? && CachedUser(storage).Some? ==> (
      && r.requests == [ProfileRequest]
      && r.state == st.(user := Some(if profile.Success? then profile.value else CachedUser(storage).value),
                        isAuthenticated := true, isLoading := false))
    ensures SecureToken(storage, AUTH_TOKEN).None? || CachedUser(storage).None? ==>
      r.state == st.(isLoading := false) && r.requests == []
  {
    var loading := st.(isLoading := true);
    if SecureToken(storage, AUTH_TOKEN).Some? && CachedUser(storage).Some? then
      var cached := CachedUser(storage).value;
      match profile
      case Success(u) => Step(loading.(user := Some(u), isAuthenticated := true, isLoading := false), storage, [ProfileRequest], None)
      case Failure(_) => Step(loading.(user := Some(cached), isAuthenticated := true, isLoading := false), storage, [ProfileRequest], None)
    else
      Step(loading.(isLoading := false), storage, [], None)
  }

  /** `{ ...user, ...patch }`: every supplied field overrides. */
  function Merge(u: User, patch: UserPatch): (m: User)
    ensures patch == UserPatch(None, None, None, None, None, None, None) ==> m == u
    ensures m.id == patch.id.GetOr(u.id) && m.email == patch.email.GetOr(u.email) && m.name == patch.name.GetOr(u.name)
    ensures m.phone == (if patch.phone.Some? then patch.phone else u.phone)
    ensures m.avatar == (if patch.avatar.Some? then patch.avatar else u.avatar)
    ensures m.createdAt == patch.createdAt.GetOr(u.createdAt) && m.updatedAt == patch.updatedAt.GetOr(u.updatedAt)
  {
    User(
      patch.id.GetOr(u.id),
      patch.email.GetOr(u.email),
      patch.name.GetOr(u.name),
      if patch.phone.Some? then patch.phone else u.phone,
      if patch.avatar.Some? then patch.avatar else u.avatar,
      patch.createdAt.GetOr(u.createdAt),
      patch.updatedAt.GetOr(u.updatedAt))
  }

  /** `updateUser`: a no-op without a signed-in user, else merge and cache. */
  function UpdateUser(st: AuthState, storage: Storage, patch: UserPatch): (r: Step)
    ensures st.user.None? ==> r == Step(st, storage, [], None)
    ensures st.user.Some? ==> (
      && r.state == st.(user := Some(Merge(st.user.value, patch)))
      && r.storage == Put(storage, USER_DATA, UserData(Merge(st.user.value, patch)))
      && r.requests == [] && r.thrown == None)
  {
    if st.user.Some? then
      var updated := Merge(st.user.value, patch);
      Step(st.(user := Some(updated)), Put(storage, USER_DATA, UserData(updated)), [], None)
    else
      Step(st, storage, [], None)
  }

  function ClearError(st: AuthState): (r: AuthState)
    ensures r.error == None
    ensures r.(error := st.error) == st
  {
    st.(error := None)
  }

  // ------------------------------------------------------------ properties

  /** A session saved by login survives a restart: `loadUser` from a fresh
      store restores the user (the fetched profile, or the saved one when the
      fetch fails), provided the access token is non-empty. The tokens field
      stays empty. */
  lemma LoginThenRestart(st: AuthState, storage: Storage, payload: AuthResponse, profile: Result<User, Error>)
    requires payload.tokens.accessToken != ""
    ensures var afterLogin := Login(st, storage, Success(payload));
      var restarted := LoadUser(INITIAL, afterLogin.storage, profile);
      && restarted.state.isAuthenticated
      && restarted.state.user == Some(if profile.Success? then profile.value else payload.user)
      && restarted.state.tokens == None
  {
    var afterLogin := Login(st, storage, Success(payload));
    assert SecureToken(afterLogin.storage, AUTH_TOKEN) == Some(payload.tokens.accessToken);
    assert CachedUser(afterLogin.storage) == Some(payload.user);
  }

  /** After logout, `loadUser` finds no session and changes only the loading
      flag; no profile request is made. */
  lemma LogoutThenRestart(st: AuthState, storage: Storage, response: Outcome<Error>,
                          st2: AuthState, profile: Result<User, Error>)
    ensures var out := Logout(st, storage, response);
      var restarted := LoadUser(st2, out.storage, profile);
      restarted.state == st2.(isLoading := false) && restarted.requests == []
  {
    var out := Logout(st, storage, response);
    assert SecureToken(out.storage, AUTH_TOKEN).None?;
  }

  /** Applying the same patch twice is applying it once. */
  lemma MergeIdempotent(u: User, patch: UserPatch)
    ensures Merge(Merge(u, patch), patch) == Merge(u, patch)
  {
  }

  /** A profile edit survives a restart whose profile fetch fails: the cached
      profile is the merged one. */
  lemma UpdateThenRestart(st: AuthState, storage: Storage, patch: UserPatch, e: Error)
    requires st.user.Some? && SecureToken(storage, AUTH_TOKEN).Some?
    ensures var updated := UpdateUser(st, storage, patch);
      var restarted := LoadUser(INITIAL, updated.storage, Failure(e));
      restarted.state.user == Some(Merge(st.user.value, patch)) && restarted.state.isAuthenticated
  {
    var updated := UpdateUser(st, storage, patch);
    assert SecureToken(updated.storage, AUTH_TOKEN) == SecureToken(storage, AUTH_TOKEN);
  }

  /** Clearing the error after a failed login or signup leaves the state the
      attempt started from, with loading settled; clearing twice is clearing
      once. */
  lemma ClearErrorAfterFailedAttempt(st: AuthState, storage: Storage, e: Error, signup: bool)
    ensures var r := if signup then Signup(st, storage, Failure(e)) else Login(st, storage, Failure(e));
      ClearError(r.state) == ClearError(st).(isLoading := false) && r.storage == storage
    ensures ClearError(ClearError(st)) == ClearError(st)
  {
  }
}

=== FILE: cart_store.dfy ===
/** The cart store (src/store/cartStore.ts): derived totals, optimistic list
    edits mirrored to the cart endpoints, replacement by the server's cart on
    success and a reload on failure. Every action is one sequential transition
    from the current state and the outcomes of the remote calls it makes. */
module CartStore {
  import opened Wrappers
  import opened Types
  import opened Persistence
  import opened Seqs

  /** The 18% goods-and-services tax applied to the subtotal. */
  const TAX_RATE: real := 0.18

  datatype Totals = Totals(subtotal: real, discount: real, tax: real, total: real, itemCount: int)

  datatype CartState = CartState(cart: Option<Cart>, isLoading: bool, isSyncing: bool, error: Option<string>)

  const INITIAL: CartState := CartState(None, false, false, None)

  /** The cart endpoints, as the store calls them. */
  datatype CartRequest =
    | GetCart
    | AddItemRequest(productId: string, variantId: Option<string>, quantity: int)
    | UpdateQuantityRequest(itemId: string, quantity: int)
    | RemoveItemRequest(itemId: string)
    | ClearCartRequest
    | SyncCartRequest(items: seq<CartItem>)
    | ApplyCouponRequest(code: string)
    | RemoveCouponRequest

  /** The effect of one action: the new store state, the new device storage,
      the requests issued in order, and the error rethrown to the caller. */
  datatype Step = Step(state: CartState, storage: Storage, requests: seq<CartRequest>, thrown: Option<Error>)

  // ---------------------------------------------------------------- totals

  function LineTotal(item: CartItem): real {
    item.product.price * (item.quantity as real)
  }

  /** The sum of price times quantity over the items. */
  function Subtotal(items: seq<CartItem>): real {
    if |items| == 0 then 0.0 else LineTotal(items[0]) + Subtotal(items[1..])
  }

  /** The sum of the quantities of the items. */
  function ItemCount(items: seq<CartItem>): int {
    if |items| == 0 then 0 else items[0].quantity + ItemCount(items[1..])
  }

  /** `items.reduce((sum, item) => sum + price * quantity, sum)`, left to right. */
  function ReduceSubtotal(items: seq<CartItem>, sum: real): (r: real)
    ensures r == sum + Subtotal(items)
  {
    if |items| == 0 then sum else ReduceSubtotal(items[1..], sum + LineTotal(items[0]))
  }

  /** `items.reduce((sum, item) => sum + quantity, sum)`, left to right. */
  function ReduceItemCount(items: seq<CartItem>, sum: int): (r: int)
    ensures r == sum + ItemCount(items)
  {
    if |items| == 0 then sum else ReduceItemCount(items[1..], sum + items[0].quantity)
  }

  function CalculateCartTotals(items: seq<CartItem>): (t: Totals)
    ensures t.itemCount == ItemCount(items)
    ensures t.subtotal == Subtotal(items)
    ensures t.discount == 0.0
    ensures t.tax == TAX_RATE * t.subtotal
    ensures t.total == t.subtotal - t.discount + t.tax
    ensures items == [] ==> t == Totals(0.0, 0.0, 0.0, 0.0, 0)
  {
    var subtotal := ReduceSubtotal(items, 0.0);
    var discount := 0.0;
    var tax := subtotal * TAX_RATE;
    Totals(subtotal, discount, tax, subtotal - discount + tax, ReduceItemCount(items, 0))
  }

  /** The derived fields of a cart agree with its items. */
  predicate Consistent(c: Cart) {
    && c.itemCount == ItemCount(c.items)
    && c.subtotal == Subtotal(c.items)
    && c.tax == TAX_RATE * c.subtotal
    && c.total == c.subtotal - c.discount + c.tax
  }

  /** `{ items, ...calculateCartTotals(items) }`: a locally computed cart. */
  function WithTotals(items: seq<CartItem>): (c: Cart)
    ensures c.items == items
    ensures Consistent(c) && c.discount == 0.0
  {
    var t := CalculateCartTotals(items);
    Cart(items, t.subtotal, t.discount, t.tax, t.total, t.itemCount)
  }

  const EMPTY_CART: Cart := Cart([], 0.0, 0.0, 0.0, 0.0, 0)

  /** The empty list yields the all-zero cart that `clearCart` installs. */
  lemma EmptyCartTotals()
    ensures WithTotals([]) == EMPTY_CART && Consistent(EMPTY_CART)
  {
  }

  // ---------------------------------------------------------- list edits

  function HasId(id: string): CartItem -> bool {
    (item: CartItem) => item.id == id
  }

  function LacksId(id: string): CartItem -> bool {
    (item: CartItem) => item.id != id
  }

  /** `items.filter(item => item.id !== id)`. */
  function RemoveById(items: seq<CartItem>, id: string): (r: seq<CartItem>)
    ensures |r| <= |items|
    ensures forall i :: 0 <= i < |r| ==> r[i].id != id && r[i] in items
    ensures forall i :: 0 <= i < |items| && items[i].id != id ==> items[i] in r
  {
    Filter(items, LacksId(id))
  }

  /** The items carrying `id`, in order. */
  function ItemsWithId(items: seq<CartItem>, id: string): (r: seq<CartItem>)
    ensures forall i :: 0 <= i < |r| ==> r[i].id == id && r[i] in items
    ensures forall i :: 0 <= i < |items| && items[i].id == id ==> items[i] in r
  {
    Filter(items, HasId(id))
  }

  /** `items.map(item => item.id === id ? { ...item, quantity } : item)`. */
  function SetQuantity(items: seq<CartItem>, id: string, quantity: int): (r: seq<CartItem>)
    ensures |r| == |items|
    ensures forall i :: 0 <= i < |items| && items[i].id == id ==> r[i] == items[i].(quantity := quantity)
    ensures forall i :: 0 <= i < |items| && items[i].id != id ==> r[i] == items[i]
  {
    seq(|items|, i requires 0 <= i < |items| =>
      if items[i].id == id then items[i].(quantity := quantity) else items[i])
  }

  /** The cart items, a missing cart counting as empty (`cart?.items || []`). */
  function ItemsOf(cart: Option<Cart>): seq<CartItem> {
    if cart.Some? then cart.value.items else []
  }

  /** The optimistic cart of `addItem`. */
  function OptimisticAdd(cart: Option<Cart>, item: CartItem): (c: Cart)
    ensures c.items == ItemsOf(cart) + [item]
    ensures |c.items| == |ItemsOf(cart)| + 1 && c.items[|c.items| - 1] == item
    ensures Consistent(c) && c.discount == 0.0
    ensures c.itemCount == ItemCount(ItemsOf(cart)) + item.quantity
    ensures c.subtotal == Subtotal(ItemsOf(cart)) + LineTotal(item)
  {
    var items := ItemsOf(cart) + [item];
    SubtotalConcat(ItemsOf(cart), [item]);
    ItemCountConcat(ItemsOf(cart), [item]);
    WithTotals(items)
  }

  /** The optimistic cart of `updateQuantity` on an existing cart. */
  function OptimisticUpdate(cart: Cart, id: string, quantity: int): (c: Cart)
    ensures |c.items| == |cart.items|
    ensures forall i :: 0 <= i < |c.items| ==>
      c.items[i].id == cart.items[i].id && c.items[i].product == cart.items[i].product
      && c.items[i].variant == cart.items[i].variant && c.items[i].addedAt == cart.items[i].addedAt
    ensures forall i :: 0 <= i < |c.items| ==>
      c.items[i].quantity == (if cart.items[i].id == id then quantity else cart.items[i].quantity)
    ensures Consistent(c) && c.discount == 0.0
    ensures c.itemCount == ItemCount(RemoveById(cart.items, id)) + quantity * |ItemsWithId(cart.items, id)|
  {
    SetQuantityItemCount(cart.items, id, quantity);
    WithTotals(SetQuantity(cart.items, id, quantity))
  }

  /** The optimistic cart of `removeItem` on an existing cart. */
  function OptimisticRemove(cart: Cart, id: string): (c: Cart)
    ensures c.items == RemoveById(cart.items, id)
    ensures forall i :: 0 <= i < |c.items| ==> c.items[i].id != id
    ensures Consistent(c) && c.discount == 0.0
    ensures c.itemCount == ItemCount(cart.items) - ItemCount(ItemsWithId(cart.items, id))
    ensures c.subtotal == Subtotal(cart.items) - Subtotal(ItemsWithId(cart.items, id))
  {
    SplitById(cart.items, id);
    WithTotals(RemoveById(cart.items, id))
  }

  // ------------------------------------------------------- lemmas on sums

  lemma {:induction false} SubtotalConcat(a: seq<CartItem>, b: seq<CartItem>)
    ensures Subtotal(a + b) == Subtotal(a) + Subtotal(b)
  {
    if |a| == 0 {
      assert a + b == b;
    } else {
      assert (a + b)[1..] == a[1..] + b;
      SubtotalConcat(a[1..], b);
    }
  }

  lemma {:induction false} ItemCountConcat(a: seq<CartItem>, b: seq<CartItem>)
    ensures ItemCount(a + b) == ItemCount(a) + ItemCount(b)
  {
    if |a| == 0 {
      assert a + b == b;
    } else {
      assert (a + b)[1..] == a[1..] + b;
      ItemCountConcat(a[1..], b);
    }
  }

  /** Removing the items with an id splits both sums between the kept and the
      removed items. */
  lemma {:induction false} SplitById(items: seq<CartItem>, id: string)
    ensures ItemCount(items) == ItemCount(RemoveById(items, id)) + ItemCount(ItemsWithId(items, id))
    ensures Subtotal(items) == Subtotal(RemoveById(items, id)) + Subtotal(ItemsWithId(items, id))
  {
    if |items| > 0 {
      SplitById(items[1..], id);
      if items[0].id == id {
        assert ItemsWithId(items, id) == [items[0]] + ItemsWithId(items[1..], id);
        assert RemoveById(items, id) == RemoveById(items[1..], id);
      } else {
        assert ItemsWithId(items, id) == ItemsWithId(items[1..], id);
        assert RemoveById(items, id) == [items[0]] + RemoveById(items[1..], id);
      }
    }
  }

  /** Setting the quantity of the items with an id to `q` counts `q` once per
      matching item and leaves every other item's quantity in the count. */
  lemma {:induction false} SetQuantityItemCount(items: seq<CartItem>, id: string, q: int)
    ensures ItemCount(SetQuantity(items, id, q)) == ItemCount(RemoveById(items, id)) + q * |ItemsWithId(items, id)|
  {
    if |items| > 0 {
      var r := SetQuantity(items, id, q);
      var tail := items[1..];
      assert r[1..] == SetQuantity(tail, id, q);
      SetQuantityItemCount(tail, id, q);
      var n := |ItemsWithId(tail, id)|;
      if items[0].id == id {
        assert ItemsWithId(items, id) == [items[0]] + ItemsWithId(tail, id);
        assert RemoveById(items, id) == RemoveById(tail, id);
        assert ItemCount(r) == q + ItemCount(SetQuantity(tail, id, q));
        MulSucc(q, n);
      } else {
        assert ItemsWithId(items, id) == ItemsWithId(tail, id);
        assert RemoveById(items, id) == [items[0]] + RemoveById(tail, id);
        assert ItemCount(r) == items[0].quantity + ItemCount(SetQuantity(tail, id, q));
      }
    }
  }

  lemma MulSucc(q: int, n: int)
    ensures q * (n + 1) == q + q * n
  {
  }

  // --------------------------------------------------------------- actions

  /** The cart held in the device cache, if any. */
  function CachedCart(storage: Storage): (r: Option<Cart>)
    ensures r.Some? <==> CART_DATA in storage.cache && storage.cache[CART_DATA].CartData?
    ensures r.Some? ==> r.value == storage.cache[CART_DATA].cart
  {
    if CART_DATA in storage.cache && storage.cache[CART_DATA].CartData? then Some(storage.cache[CART_DATA].cart)
    else None
  }

  /** `loadCart`: install the cached cart, then let a successful fetch override
      and persist it; a failed fetch keeps whatever is installed. */
  function LoadCart(st: CartState, storage: Storage, fetched: Result<Cart, Error>): (r: Step)
    ensures r.requests == [GetCart] && r.thrown == None
    ensures !r.state.isLoading && r.state.error == None && r.state.isSyncing == st.isSyncing
    ensures fetched.Success? ==>
      r.state.cart == Some(fetched.value) && r.storage == Put(storage, CART_DATA, CartData(fetched.value))
    ensures fetched.Failure? ==> r.storage == storage
    ensures fetched.Failure? && CachedCart(storage).Some? ==> r.state.cart == CachedCart(storage)
    ensures fetched.Failure? && CachedCart(storage).None? ==> r.state.cart == st.cart
  {
    var loading := st.(isLoading := true, error := None);
    var seeded := if CachedCart(storage).Some? then loading.(cart := CachedCart(storage), isLoading := false) else loading;
    match fetched
    case Success(c) => Step(seeded.(cart := Some(c), isLoading := false), Put(storage, CART_DATA, CartData(c)), [GetCart], None)
    case Failure(_) => Step(seeded.(isLoading := false), storage, [GetCart], None)
  }

  /** The common tail of add, update and remove: install and persist the
      optimistic cart, send `request`, then adopt the server's cart, or reload
      and rethrow with the fallback message. */
  function Reconcile(st: CartState, storage: Storage, optimistic: Cart, request: CartRequest,
                     response: Result<Cart, Error>, reload: Result<Cart, Error>, fallback: string): (r: Step)
    ensures response.Success? ==> r == Step(st.(cart := Some(response.value)),
                                           Put(storage, CART_DATA, CartData(response.value)), [request], None)
    ensures response.Failure? ==>
      && r.thrown == Some(response.error)
      && r.requests == [request, GetCart]
      && r.state.error == Some(MessageOr(response.error, fallback))
      && !r.state.isLoading
      && r.state.cart == (if reload.Success? then Some(reload.value) else Some(optimistic))
      && r.storage == Put(storage, CART_DATA, CartData(if reload.Success? then reload.value else optimistic))
  {
    var optimisticState := st.(cart := Some(optimistic));
    var optimisticStorage := Put(storage, CART_DATA, CartData(optimistic));
    assert Put(optimisticStorage, CART_DATA, CartData(optimistic)) == optimisticStorage;
    match response
    case Success(c) =>
      assert Put(optimisticStorage, CART_DATA, CartData(c)) == Put(storage, CART_DATA, CartData(c));
      Step(optimisticState.(cart := Some(c)), Put(optimisticStorage, CART_DATA, CartData(c)), [request], None)
    case Failure(e) =>
      var reloaded := LoadCart(optimisticState, optimisticStorage, reload);
      if reload.Success? then
        assert Put(optimisticStorage, CART_DATA, CartData(reload.value)) == Put(storage, CART_DATA, CartData(reload.value));
        Step(reloaded.state.(error := Some(MessageOr(e, fallback))), reloaded.storage, [request] + reloaded.requests, Some(e))
      else
        Step(reloaded.state.(error := Some(MessageOr(e, fallback))), reloaded.storage, [request] + reloaded.requests, Some(e))
  }

  /** `addItem(product, variant, quantity = 1)` with the fresh temporary id and
      timestamp passed in. */
  function AddItem(st: CartState, storage: Storage, product: Product, variant: Option<ProductVariant>,
                   quantity: Option<int>, tempId: string, now: string,
                   response: Result<Cart, Error>, reload: Result<Cart, Error>): (r: Step)
    ensures var request := AddItemRequest(product.id, if variant.Some? then Some(variant.value.id) else None, quantity.GetOr(1));
      r.requests == if response.Success? then [request] else [request, GetCart]
    ensures response.Success? ==> (r.state.cart == Some(response.value) && r.thrown == None
      && CachedCart(r.storage) == Some(response.value))
    ensures response.Failure? ==> (r.thrown == Some(response.error)
      && r.state.error == Some(MessageOr(response.error, "Failed to add item"))
      && r.state.cart == Some(if reload.Success? then reload.value
                              else OptimisticAdd(st.cart, CartItem(tempId, product, variant, quantity.GetOr(1), now)))
      && CachedCart(r.storage) == r.state.cart)
  {
    var q := quantity.GetOr(1);
    var item := CartItem(tempId, product, variant, q, now);
    var variantId := if variant.Some? then Some(variant.value.id) else None;
    Reconcile(st, storage, OptimisticAdd(st.cart, item), AddItemRequest(product.id, variantId, q),
              response, reload, "Failed to add item")
  }

  /** `updateQuantity(itemId, quantity)`. */
  function UpdateQuantity(st: CartState, storage: Storage, itemId: string, quantity: int,
                          response: Result<Cart, Error>, reload: Result<Cart, Error>): (r: Step)
    ensures st.cart.None? ==> r == Step(st, storage, [], None)
    ensures st.cart.Some? && response.Success? ==> (r.state.cart == Some(response.value)
      && CachedCart(r.storage) == Some(response.value)
      && r.requests == [UpdateQuantityRequest(itemId, quantity)] && r.thrown == None)
    ensures st.cart.Some? && response.Failure? ==> (r.thrown == Some(response.error)
      && r.requests == [UpdateQuantityRequest(itemId, quantity), GetCart]
      && r.state.error == Some(MessageOr(response.error, "Failed to update quantity"))
      && r.state.cart == Some(if reload.Success? then reload.value else OptimisticUpdate(st.cart.value, itemId, quantity))
      && CachedCart(r.storage) == r.state.cart)
  {
    if st.cart.None? then Step(st, storage, [], None)
    else Reconcile(st, storage, OptimisticUpdate(st.cart.value, itemId, quantity),
                   UpdateQuantityRequest(itemId, quantity), response, reload, "Failed to update quantity")
  }

  /** `removeItem(itemId)`. */
  function RemoveItem(st: CartState, storage: Storage, itemId: string,
                      response: Result<Cart, Error>, reload: Result<Cart, Error>): (r: Step)
    ensures st.cart.None? ==> r == Step(st, storage, [], None)
    ensures st.cart.Some? && response.Success? ==> (r.state.cart == Some(response.value)
      && CachedCart(r.storage) == Some(response.value)
      && r.requests == [RemoveItemRequest(itemId)] && r.thrown == None)
    ensures st.cart.Some? && response.Failure? ==> (r.thrown == Some(response.error)
      && r.requests == [RemoveItemRequest(itemId), GetCart]
      && r.state.error == Some(MessageOr(response.error, "Failed to remove item"))
      && r.state.cart == Some(if reload.Success? then reload.value else OptimisticRemove(st.cart.value, itemId))
      && CachedCart(r.storage) == r.state.cart)
  {
    if st.cart.None? then Step(st, storage, [], None)
    else Reconcile(st, storage, OptimisticRemove(st.cart.value, itemId),
                   RemoveItemRequest(itemId), response, reload, "Failed to remove item")
  }

  /** `clearCart`: the empty cart is installed and the cache entry dropped
      before the request; a failure only records the error. */
  function ClearCart(st: CartState, storage: Storage, response: Outcome<Error>): (r: Step)
    ensures r.state.cart == Some(EMPTY_CART)
    ensures r.storage == Remove(storage, CART_DATA)
    ensures r.requests == [ClearCartRequest] && r.thrown == None
    ensures response.Pass? ==> r.state.error == st.error
    ensures response.Fail? ==> r.state.error == Some(MessageOr(response.error, "Failed to clear cart"))
    ensures r.state.isLoading == st.isLoading && r.state.isSyncing == st.isSyncing
  {
    var cleared := st.(cart := Some(EMPTY_CART));
    match response
    case Pass => Step(cleared, Remove(storage, CART_DATA), [ClearCartRequest], None)
    case Fail(e) => Step(cleared.(error := Some(MessageOr(e, "Failed to clear cart"))), Remove(storage, CART_DATA), [ClearCartRequest], None)
  }

  /** `syncCart`: only a non-empty cart is sent; failures are recorded, not
      rethrown. */
  function SyncCart(st: CartState, storage: Storage, response: Result<Cart, Error>): (r: Step)
    ensures !r.state.isSyncing && r.thrown == None
    ensures st.cart.None? || |st.cart.value.items| == 0 ==> r == Step(st.(isSyncing := false), storage, [], None)
    ensures st.cart.Some? && |st.cart.value.items| > 0 ==>
      && r.requests == [SyncCartRequest(st.cart.value.items)]
      && (response.Success? ==> r.state.cart == Some(response.value) && CachedCart(r.storage) == Some(response.value))
      && (response.Failure? ==> r.state.cart == st.cart && r.storage == storage
                                && r.state.error == Some(MessageOr(response.error, "Failed to sync cart")))
  {
    if st.cart.Some? && |st.cart.value.items| > 0 then
      var request := SyncCartRequest(st.cart.value.items);
      match response
      case Success(c) => Step(st.(cart := Some(c), isSyncing := false), Put(storage, CART_DATA, CartData(c)), [request], None)
      case Failure(e) => Step(st.(error := Some(MessageOr(e, "Failed to sync cart")), isSyncing := false), storage, [request], None)
    else
      Step(st.(isSyncing := false), storage, [], None)
  }

  /** The shared shape of `applyCoupon` and `removeCoupon`: no optimistic
      update, and no reload on failure. */
  function CouponCall(st: CartState, storage: Storage, request: CartRequest,
                      response: Result<Cart, Error>, fallback: string): (r: Step)
    ensures r.requests == [request]
    ensures response.Success? ==> (r.state == st.(cart := Some(response.value))
      && r.storage == Put(storage, CART_DATA, CartData(response.value)) && r.thrown == None)
    ensures response.Failure? ==> (r.state == st.(error := Some(MessageOr(response.error, fallback)))
      && r.storage == storage && r.thrown == Some(response.error))
  {
    match response
    case Success(c) => Step(st.(cart := Some(c)), Put(storage, CART_DATA, CartData(c)), [request], None)
    case Failure(e) => Step(st.(error := Some(MessageOr(e, fallback))), storage, [request], Some(e))
  }

  function ApplyCoupon(st: CartState, storage: Storage, code: string, response: Result<Cart, Error>): (r: Step)
    ensures r.requests == [ApplyCouponRequest(code)]
    ensures response.Failure? ==> r.state.cart == st.cart && r.thrown == Some(response.error)
    ensures response.Failure? ==> r.storage == storage && r.state.error == Some(MessageOr(response.error, "Failed to apply coupon"))
    ensures response.Success? ==> r.state.cart == Some(response.value) && CachedCart(r.storage) == Some(response.value)
  {
    CouponCall(st, storage, ApplyCouponRequest(code), response, "Failed to apply coupon")
  }

  function RemoveCoupon(st: CartState, storage: Storage, response: Result<Cart, Error>): (r: Step)
    ensures r.requests == [RemoveCouponRequest]
    ensures response.Failure? ==> r.state.cart == st.cart && r.thrown == Some(response.error)
    ensures response.Failure? ==> r.storage == storage && r.state.error == Some(MessageOr(response.error, "Failed to remove coupon"))
    ensures response.Success? ==> r.state.cart == Some(response.value) && CachedCart(r.storage) == Some(response.value)
  {
    CouponCall(st, storage, RemoveCouponRequest, response, "Failed to remove coupon")
  }

  // ------------------------------------------------------------ properties

  /** The worked example: one line of price 1000 and quantity 2. */
  lemma OneLineExample(p: Product, tempId: string, now: string)
    requires p.price == 1000.0
    ensures var c := WithTotals([CartItem(tempId, p, None, 2, now)]);
      c.subtotal == 2000.0 && c.tax == 360.0 && c.total == 2360.0 && c.itemCount == 2
    ensures var items := [CartItem(tempId, p, None, 2, now)];
      WithTotals(RemoveById(items, tempId)) == EMPTY_CART
  {
    var items := [CartItem(tempId, p, None, 2, now)];
    assert items[1..] == [];
    assert RemoveById(items, tempId) == [];
  }

  /** A failed add followed by a failed reload does not roll back: the cache
      already holds the optimistic cart, so the temporary item stays. */
  lemma FailedAddKeepsTemporaryItem(st: CartState, storage: Storage, product: Product,
                                    quantity: Option<int>, tempId: string, now: string, e: Error, e2: Error)
    ensures var r := AddItem(st, storage, product, None, quantity, tempId, now, Failure(e), Failure(e2));
      r.state.cart.Some?
      && |r.state.cart.value.items| > 0
      && r.state.cart.value.items[|r.state.cart.value.items| - 1].id == tempId
      && r.thrown == Some(e)
  {
  }

  /** A failed add followed by a successful reload leaves exactly the server's
      cart, so no temporary item survives unless the server returned one. */
  lemma FailedAddReloadRestoresServerCart(st: CartState, storage: Storage, product: Product,
                                          quantity: Option<int>, tempId: string, now: string, e: Error, server: Cart)
    ensures var r := AddItem(st, storage, product, None, quantity, tempId, now, Failure(e), Success(server));
      r.state.cart == Some(server) && CachedCart(r.storage) == Some(server) && !r.state.isLoading
  {
  }

  /** Both the in-memory cart and the cached cart have consistent totals. */
  predicate Healthy(st: CartState, storage: Storage) {
    && (st.cart.Some? ==> Consistent(st.cart.value))
    && (CachedCart(storage).Some? ==> Consistent(CachedCart(storage).value))
  }

  /** One cart action with its remote outcomes fixed. */
  datatype CartOp =
    | LoadOp(fetched: Result<Cart, Error>)
    | AddOp(product: Product, variant: Option<ProductVariant>, requested: Option<int>, tempId: string, now: string,
            response: Result<Cart, Error>, reload: Result<Cart, Error>)
    | UpdateOp(itemId: string, quantity: int, response: Result<Cart, Error>, reload: Result<Cart, Error>)
    | RemoveOp(itemId: string, response: Result<Cart, Error>, reload: Result<Cart, Error>)
    | ClearOp(outcome: Outcome<Error>)
    | SyncOp(response: Result<Cart, Error>)
    | ApplyCouponOp(code: string, response: Result<Cart, Error>)
    | RemoveCouponOp(response: Result<Cart, Error>)

  function Apply(st: CartState, storage: Storage, op: CartOp): Step {
    match op
    case LoadOp(f) => LoadCart(st, storage, f)
    case AddOp(p, v, q, t, n, resp, rel) => AddItem(st, storage, p, v, q, t, n, resp, rel)
    case UpdateOp(id, q, resp, rel) => UpdateQuantity(st, storage, id, q, resp, rel)
    case RemoveOp(id, resp, rel) => RemoveItem(st, storage, id, resp, rel)
    case ClearOp(o) => ClearCart(st, storage, o)
    case SyncOp(resp) => SyncCart(st, storage, resp)
    case ApplyCouponOp(code, resp) => ApplyCoupon(st, storage, code, resp)
    case RemoveCouponOp(resp) => RemoveCoupon(st, storage, resp)
  }

  /** Every cart the server hands back in `op` is consistent. */
  predicate ServerConsistent(op: CartOp) {
    match op
    case LoadOp(f) => f.Success? ==> Consistent(f.value)
    case ClearOp(_) => true
    case AddOp(_, _, _, _, _, resp, rel) => (resp.Success? ==> Consistent(resp.value)) && (rel.Success? ==> Consistent(rel.value))
    case UpdateOp(_, _, resp, rel) => (resp.Success? ==> Consistent(resp.value)) && (rel.Success? ==> Consistent(rel.value))
    case RemoveOp(_, resp, rel) => (resp.Success? ==> Consistent(resp.value)) && (rel.Success? ==> Consistent(rel.value))
    case _ => op.response.Success? ==> Consistent(op.response.value)
  }

  /** Run a sequence of operations, one after another. */
  function Run(st: CartState, storage: Storage, ops: seq<CartOp>): (r: (CartState, Storage))
    decreases |ops|
  {
    if |ops| == 0 then (st, storage)
    else
      var s := Apply(st, storage, ops[0]);
      Run(s.state, s.storage, ops[1..])
  }

  lemma ApplyKeepsHealthy(st: CartState, storage: Storage, op: CartOp)
    requires Healthy(st, storage) && ServerConsistent(op)
    ensures var s := Apply(st, storage, op); Healthy(s.state, s.storage)
  {
  }

  /** After every sequence of cart actions, with consistent server carts, the
      item count, subtotal, tax and total agree with the items. */
  lemma {:induction false} RunKeepsHealthy(st: CartState, storage: Storage, ops: seq<CartOp>)
    requires Healthy(st, storage)
    requires forall i :: 0 <= i < |ops| ==> ServerConsistent(ops[i])
    ensures var r := Run(st, storage, ops); Healthy(r.0, r.1)
    decreases |ops|
  {
    if |ops| > 0 {
      ApplyKeepsHealthy(st, storage, ops[0]);
      var s := Apply(st, storage, ops[0]);
      RunKeepsHealthy(s.state, s.storage, ops[1..]);
    }
  }

  /** What a restart would show: the cached cart is the cart on screen, except
      after a clear, which shows the empty cart but leaves nothing cached. */
  predicate Restorable(st: CartState, storage: Storage) {
    || CachedCart(storage) == st.cart
    || (CachedCart(storage).None? && st.cart == Some(EMPTY_CART))
  }

  /** Add, update and remove always leave the cached cart equal to the one
      shown, whichever way the request and the reload end. */
  lemma ReconcileMirrors(st: CartState, storage: Storage, optimistic: Cart, request: CartRequest,
                         response: Result<Cart, Error>, reload: Result<Cart, Error>, fallback: string)
    ensures var r := Reconcile(st, storage, optimistic, request, response, reload, fallback);
      CachedCart(r.storage) == r.state.cart
  {
  }

  lemma ApplyKeepsRestorable(st: CartState, storage: Storage, op: CartOp)
    requires Restorable(st, storage)
    ensures var s := Apply(st, storage, op); Restorable(s.state, s.storage)
  {
    match op
    case LoadOp(f) =>
    case AddOp(p, v, q, t, n, resp, rel) =>
      var variantId := if v.Some? then Some(v.value.id) else None;
      ReconcileMirrors(st, storage, OptimisticAdd(st.cart, CartItem(t, p, v, q.GetOr(1), n)),
                       AddItemRequest(p.id, variantId, q.GetOr(1)), resp, rel, "Failed to add item");
    case UpdateOp(id, q, resp, rel) =>
      if st.cart.Some? {
        ReconcileMirrors(st, storage, OptimisticUpdate(st.cart.value, id, q),
                         UpdateQuantityRequest(id, q), resp, rel, "Failed to update quantity");
      }
    case RemoveOp(id, resp, rel) =>
      if st.cart.Some? {
        ReconcileMirrors(st, storage, OptimisticRemove(st.cart.value, id),
                         RemoveItemRequest(id), resp, rel, "Failed to remove item");
      }
    case ClearOp(o) =>
    case SyncOp(resp) =>
    case ApplyCouponOp(code, resp) =>
    case RemoveCouponOp(resp) =>
  }

  /** Every sequence of cart actions, whatever the server answers, leaves a
      cart that a restart restores. */
  lemma {:induction false} RunKeepsRestorable(st: CartState, storage: Storage, ops: seq<CartOp>)
    requires Restorable(st, storage)
    ensures var r := Run(st, storage, ops); Restorable(r.0, r.1)
    decreases |ops|
  {
    if |ops| > 0 {
      ApplyKeepsRestorable(st, storage, ops[0]);
      var s := Apply(st, storage, ops[0]);
      RunKeepsRestorable(s.state, s.storage, ops[1..]);
    }
  }

  /** A restart whose fetch fails shows the cart the store held, except that a
      cleared cart comes back as no cart at all. */
  lemma RestartShowsCart(st: CartState, storage: Storage, e: Error)
    requires Restorable(st, storage)
    ensures var restarted := LoadCart(INITIAL, storage, Failure(e)).state.cart;
      restarted == (if CachedCart(storage).None? then None else st.cart)
    ensures CachedCart(storage).None? ==> st.cart.None? || st.cart == Some(EMPTY_CART)
  {
  }
}

=== FILE: order_queries.dfy ===
/** The order query keys, the options of each order query and the
    invalidation done by the order mutations (src/hooks/useOrders.ts). */
module OrderQueries {
  import opened Wrappers
  import opened QueryKeys

  /** The entries of the `orderKeys` factory. */
  datatype OrderKey =
    | All
    | Lists
    | List
    | Details
    | Detail(id: string)
    | Tracking(id: string)

  function Rank(k: OrderKey): nat {
    match k
    case All => 0
    case Lists | Details | Tracking(_) => 1
    case List | Detail(_) => 2
  }

  function KeyOf(k: OrderKey): (key: Key)
    ensures |key| >= 1 && key[0] == Name("orders")
    decreases Rank(k)
  {
    match k
    case All => [Name("orders")]
    case Lists => KeyOf(All) + [Name("list")]
    case List => KeyOf(Lists)
    case Details => KeyOf(All) + [Name("detail")]
    case Detail(id) => KeyOf(Details) + [Name(id)]
    case Tracking(id) => KeyOf(All) + [Name("tracking"), Name(id)]
  }

  /** The shapes of the order keys: `list()` is `lists()`, a detail key
      extends `details()` by the id, and tracking keys are separate. */
  lemma KeyShapes(id: string)
    ensures KeyOf(List) == KeyOf(Lists) == [Name("orders"), Name("list")]
    ensures KeyOf(Detail(id)) == KeyOf(Details) + [Name(id)]
    ensures KeyOf(Tracking(id)) == [Name("orders"), Name("tracking"), Name(id)]
    ensures !IsPrefix(KeyOf(Details), KeyOf(Tracking(id)))
  {
    assert KeyOf(Tracking(id))[1] == Name("tracking");
  }

  /** The cached entries that the `cart` key reaches. */
  const CART_KEY: Key := [Name("cart")]

  const PAGE_SIZE: nat := 10

  datatype OrderQuery = Orders | Order(id: string) | OrderTracking(id: string)

  datatype QueryOptions = QueryOptions(key: OrderKey, enabled: bool, paging: Option<Paging>)

  function OptionsOf(q: OrderQuery): (o: QueryOptions)
    ensures q.Orders? <==> o.paging.Some?
    ensures q.Orders? ==> o.enabled && o.paging == Some(Paging(INITIAL_PAGE, PAGE_SIZE))
    ensures !q.Orders? ==> (o.enabled <==> q.id != "")
    ensures KeyOf(o.key)[0] == Name("orders")
  {
    match q
    case Orders => QueryOptions(List, true, Some(Paging(INITIAL_PAGE, PAGE_SIZE)))
    case Order(id) => QueryOptions(Detail(id), id != "", None)
    case OrderTracking(id) => QueryOptions(Tracking(id), id != "", None)
  }

  // --------------------------------------------------------- invalidation

  datatype OrderMutation =
    | CreateOrder
    | CancelOrder(id: string)
    | ReturnOrder(id: string)

  /** The keys each mutation invalidates on success, in order. */
  function Invalidates(m: OrderMutation): (r: seq<Key>)
    ensures |r| == 2
  {
    match m
    case CreateOrder => [KeyOf(Lists), CART_KEY]
    case CancelOrder(id) => [KeyOf(Detail(id)), KeyOf(Lists)]
    case ReturnOrder(id) => [KeyOf(Detail(id)), KeyOf(Lists)]
  }

  /** A single prefix key reaches a cached order key exactly when the
      factory entries match. */
  lemma ListsReaches(k: OrderKey)
    ensures IsPrefix(KeyOf(Lists), KeyOf(k)) <==> k.Lists? || k.List?
  {
    if IsPrefix(KeyOf(Lists), KeyOf(k)) {
      assert KeyOf(k)[1] == Name("list");
    }
  }

  lemma DetailReaches(id: string, k: OrderKey)
    ensures IsPrefix(KeyOf(Detail(id)), KeyOf(k)) <==> k == Detail(id)
  {
    if IsPrefix(KeyOf(Detail(id)), KeyOf(k)) {
      assert KeyOf(k)[1] == Name("detail");
      assert KeyOf(k)[2] == Name(id);
    }
  }

  /** Placing an order invalidates the order lists and everything under the
      cart key, and no other order entry. */
  lemma CreateHitsExactly(k: OrderKey, other: Key)
    ensures Hit(Invalidates(CreateOrder), KeyOf(k)) <==> k.Lists? || k.List?
    ensures Hit(Invalidates(CreateOrder), other) <==> IsPrefix(KeyOf(Lists), other) || IsPrefix(CART_KEY, other)
  {
    var r := Invalidates(CreateOrder);
    ListsReaches(k);
    assert KeyOf(k)[0] != CART_KEY[0];
    if Hit(r, KeyOf(k)) {
      var i :| 0 <= i < |r| && IsPrefix(r[i], KeyOf(k));
    }
    if k.Lists? || k.List? {
      assert IsPrefix(r[0], KeyOf(k));
    }
    if IsPrefix(KeyOf(Lists), other) {
      assert IsPrefix(r[0], other);
    }
    if IsPrefix(CART_KEY, other) {
      assert IsPrefix(r[1], other);
    }
  }

  /** Cancelling or returning an order invalidates its detail and the lists;
      its tracking entry and the other orders' details are left alone. */
  lemma CancelOrReturnHitsExactly(m: OrderMutation, k: OrderKey)
    requires m.CancelOrder? || m.ReturnOrder?
    ensures Hit(Invalidates(m), KeyOf(k)) <==> k == Detail(m.id) || k.Lists? || k.List?
    ensures !Hit(Invalidates(m), KeyOf(Tracking(m.id)))
  {
    var r := Invalidates(m);
    ListsReaches(k);
    DetailReaches(m.id, k);
    ListsReaches(Tracking(m.id));
    DetailReaches(m.id, Tracking(m.id));
    if Hit(r, KeyOf(k)) {
      var i :| 0 <= i < |r| && IsPrefix(r[i], KeyOf(k));
    }
    if k == Detail(m.id) {
      assert IsPrefix(r[0], KeyOf(k));
    }
    if k.Lists? || k.List? {
      assert IsPrefix(r[1], KeyOf(k));
    }
  }
}

=== FILE: persistence.dfy ===
/** The two device stores the application writes through: the secure credential
    store (two string slots) and the general asynchronous cache (one serialized
    blob per key). Both are abstract key/value maps; a cache value keeps its
    type instead of being serialized, so a parse failure cannot occur here. */
module Persistence {
  import opened Wrappers
  import opened Types

  // Storage keys (src/constants/index.ts:17-25, src/store/uiStore.ts:57)
  const AUTH_TOKEN: string := "auth_token"
  const REFRESH_TOKEN: string := "refresh_token"
  const USER_DATA: string := "user_data"
  const CART_DATA: string := "cart_data"
  const WISHLIST_DATA: string := "wishlist_data"
  const THEME_MODE: string := "theme_mode"
  const ONBOARDING_COMPLETED: string := "onboarding_completed"
  const SEARCH_HISTORY: string := "search_history"

  datatype Value =
    | Text(text: string)
    | UserData(user: User)
    | CartData(cart: Cart)
    | WishlistData(items: seq<WishlistItem>)
    | HistoryData(history: seq<string>)

  datatype Storage = Storage(secure: map<string, string>, cache: map<string, Value>)

  function SetSecure(s: Storage, key: string, v: string): (r: Storage)
    ensures r.cache == s.cache
    ensures key in r.secure && r.secure[key] == v
    ensures forall k :: k in s.secure && k != key ==> k in r.secure && r.secure[k] == s.secure[k]
    ensures r.secure.Keys == s.secure.Keys + {key}
  {
    s.(secure := s.secure[key := v])
  }

  function DeleteSecure(s: Storage, key: string): (r: Storage)
    ensures r.cache == s.cache
    ensures r.secure.Keys == s.secure.Keys - {key}
    ensures forall k :: k in r.secure ==> r.secure[k] == s.secure[k]
  {
    s.(secure := s.secure - {key})
  }

  function Put(s: Storage, key: string, v: Value): (r: Storage)
    ensures r.secure == s.secure
    ensures key in r.cache && r.cache[key] == v
    ensures forall k :: k in s.cache && k != key ==> k in r.cache && r.cache[k] == s.cache[k]
    ensures r.cache.Keys == s.cache.Keys + {key}
  {
    s.(cache := s.cache[key := v])
  }

  function Remove(s: Storage, key: string): (r: Storage)
    ensures r.secure == s.secure
    ensures r.cache.Keys == s.cache.Keys - {key}
    ensures forall k :: k in r.cache ==> r.cache[k] == s.cache[k]
  {
    s.(cache := s.cache - {key})
  }

  /** A truthy secure slot: present and non-empty (`if (token)`). */
  function SecureToken(s: Storage, key: string): (r: Option<string>)
    ensures r.Some? <==> key in s.secure && s.secure[key] != ""
    ensures r.Some? ==> r.value == s.secure[key]
  {
    if key in s.secure && s.secure[key] != "" then Some(s.secure[key]) else None
  }
}

=== FILE: product_queries.dfy ===
/** The product query keys, the options of each product query and the
    invalidation done after a review is posted (src/hooks/useProducts.ts). */
module ProductQueries {
  import opened Wrappers
  import opened QueryKeys

  /** The entries of the `productKeys` factory. */
  datatype ProductKey =
    | All
    | Lists
    | List(filters: Option<map<string, string>>, sort: Option<string>)
    | Details
    | Detail(id: string)
    | Trending
    | BestSellers
    | NewArrivals
    | FlashDeals
    | Similar(id: string)
    | Reviews(id: string)
    | Search(query: string)

  /** How many factory entries a key is built on. */
  function Rank(k: ProductKey): nat {
    match k
    case All => 0
    case Lists | Details => 1
    case _ => 2
  }

  function KeyOf(k: ProductKey): (key: Key)
    ensures |key| >= 1 && key[0] == Name("products")
    decreases Rank(k)
  {
    match k
    case All => [Name("products")]
    case Lists => KeyOf(All) + [Name("list")]
    case List(f, s) => KeyOf(Lists) + [ListParams(f, s)]
    case Details => KeyOf(All) + [Name("detail")]
    case Detail(id) => KeyOf(Details) + [Name(id)]
    case Trending => KeyOf(All) + [Name("trending")]
    case BestSellers => KeyOf(All) + [Name("best-sellers")]
    case NewArrivals => KeyOf(All) + [Name("new-arrivals")]
    case FlashDeals => KeyOf(All) + [Name("flash-deals")]
    case Similar(id) => KeyOf(All) + [Name("similar"), Name(id)]
    case Reviews(id) => KeyOf(All) + [Name("reviews"), Name(id)]
    case Search(q) => KeyOf(All) + [Name("search"), Name(q)]
  }

  /** Distinct factory entries never share a cache entry. */
  lemma KeyInjective(a: ProductKey, b: ProductKey)
    ensures KeyOf(a) == KeyOf(b) <==> a == b
  {
    if KeyOf(a) == KeyOf(b) {
      var ka := KeyOf(a);
      assert |ka| == |KeyOf(b)|;
      if |ka| >= 2 {
        assert ka[1] == KeyOf(b)[1];
      }
      if |ka| == 3 {
        assert ka[2] == KeyOf(b)[2];
      }
    }
  }

  /** Every product key begins with the `all` key. */
  lemma AllIsPrefix(k: ProductKey)
    ensures IsPrefix(KeyOf(All), KeyOf(k))
    ensures k != All ==> ProperPrefix(KeyOf(All), KeyOf(k))
  {
  }

  /** `lists()` reaches exactly the list entries, and `details()` exactly the
      detail entries; each is a proper prefix of the entries below it. */
  lemma ListsAndDetails(k: ProductKey)
    ensures IsPrefix(KeyOf(Lists), KeyOf(k)) <==> k.Lists? || k.List?
    ensures IsPrefix(KeyOf(Details), KeyOf(k)) <==> k.Details? || k.Detail?
    ensures k.List? ==> ProperPrefix(KeyOf(Lists), KeyOf(k))
    ensures k.Detail? ==> ProperPrefix(KeyOf(Details), KeyOf(k))
  {
    if IsPrefix(KeyOf(Lists), KeyOf(k)) {
      assert KeyOf(k)[1] == Name("list");
    }
    if IsPrefix(KeyOf(Details), KeyOf(k)) {
      assert KeyOf(k)[1] == Name("detail");
    }
  }

  // ------------------------------------------------------------- queries

  const DEFAULT_LIMIT: int := 10
  const PAGE_SIZE: nat := 20
  const REVIEWS_PAGE_SIZE: nat := 10
  const MIN_SEARCH_LENGTH: nat := 2

  /** The product queries with their arguments; `limit` arguments default to
      `DEFAULT_LIMIT`. */
  datatype ProductQuery =
    | Products(filters: Option<map<string, string>>, sort: Option<string>)
    | Product(id: string)
    | TrendingProducts(limit: int)
    | BestSellerProducts(limit: int)
    | NewArrivalProducts(limit: int)
    | FlashDealProducts
    | SimilarProducts(productId: string, limit: int)
    | ProductSearch(query: string, filters: Option<map<string, string>>)
    | ProductReviews(productId: string)

  /** The cache entry a query uses, whether it runs, and its paging when it is
      an infinite query. */
  datatype QueryOptions = QueryOptions(key: ProductKey, enabled: bool, paging: Option<Paging>)

  function OptionsOf(q: ProductQuery): (o: QueryOptions)
    ensures o.paging.Some? <==> q.Products? || q.ProductSearch? || q.ProductReviews?
    ensures o.paging.Some? ==> o.paging.value.initialPage == INITIAL_PAGE
    ensures q.ProductReviews? ==> o.paging == Some(Paging(INITIAL_PAGE, REVIEWS_PAGE_SIZE))
    ensures q.Products? || q.ProductSearch? ==> o.paging == Some(Paging(INITIAL_PAGE, PAGE_SIZE))
    ensures q.ProductSearch? ==> (o.enabled <==> |q.query| >= MIN_SEARCH_LENGTH)
    ensures q.Product? ==> (o.enabled <==> q.id != "")
    ensures q.SimilarProducts? || q.ProductReviews? ==> (o.enabled <==> q.productId != "")
  {
    match q
    case Products(f, s) => QueryOptions(List(f, s), true, Some(Paging(INITIAL_PAGE, PAGE_SIZE)))
    case Product(id) => QueryOptions(Detail(id), id != "", None)
    case TrendingProducts(_) => QueryOptions(Trending, true, None)
    case BestSellerProducts(_) => QueryOptions(BestSellers, true, None)
    case NewArrivalProducts(_) => QueryOptions(NewArrivals, true, None)
    case FlashDealProducts => QueryOptions(FlashDeals, true, None)
    case SimilarProducts(id, _) => QueryOptions(Similar(id), id != "", None)
    case ProductSearch(query, _) => QueryOptions(Search(query), |query| >= MIN_SEARCH_LENGTH, Some(Paging(INITIAL_PAGE, PAGE_SIZE)))
    case ProductReviews(id) => QueryOptions(Reviews(id), id != "", Some(Paging(INITIAL_PAGE, REVIEWS_PAGE_SIZE)))
  }

  /** No query runs under a key with an empty identifier, and an id-keyed query
      is switched off exactly when its identifier is empty. */
  lemma EnabledKeysHaveIds(q: ProductQuery)
    ensures var o := OptionsOf(q);
      o.enabled ==> forall i :: 0 <= i < |KeyOf(o.key)| ==> KeyOf(o.key)[i] != Name("")
    ensures var o := OptionsOf(q);
      o.key.Detail? || o.key.Similar? || o.key.Reviews? ==>
        (o.enabled <==> Name("") !in KeyOf(o.key))
  {
  }

  /** The list and search keys leave out some of the query's arguments:
      queries differing only in those share one cache entry. */
  lemma KeysIgnoreLimitAndSearchFilters(query: string, f1: Option<map<string, string>>, f2: Option<map<string, string>>,
                                        id: string, l1: int, l2: int)
    ensures OptionsOf(ProductSearch(query, f1)).key == OptionsOf(ProductSearch(query, f2)).key
    ensures OptionsOf(SimilarProducts(id, l1)).key == OptionsOf(SimilarProducts(id, l2)).key
    ensures OptionsOf(TrendingProducts(l1)).key == OptionsOf(TrendingProducts(l2)).key
    ensures OptionsOf(BestSellerProducts(l1)).key == OptionsOf(BestSellerProducts(l2)).key
    ensures OptionsOf(NewArrivalProducts(l1)).key == OptionsOf(NewArrivalProducts(l2)).key
  {
  }

  // --------------------------------------------------------- invalidation

  /** `useAddReview` on success: the product's reviews, then its detail. */
  function AddReviewInvalidates(productId: string): (r: seq<Key>)
    ensures |r| == 2
  {
    [KeyOf(Reviews(productId)), KeyOf(Detail(productId))]
  }

  /** Posting a review invalidates exactly the product's reviews and detail
      entries, and nothing outside the product keys. */
  lemma AddReviewHitsExactly(productId: string, k: ProductKey, other: Key)
    ensures Hit(AddReviewInvalidates(productId), KeyOf(k)) <==> k == Reviews(productId) || k == Detail(productId)
    ensures (|other| == 0 || other[0] != Name("products")) ==> !Hit(AddReviewInvalidates(productId), other)
  {
    var r := AddReviewInvalidates(productId);
    if Hit(r, KeyOf(k)) {
      var i :| 0 <= i < |r| && IsPrefix(r[i], KeyOf(k));
      var want := if i == 0 then Reviews(productId) else Detail(productId);
      assert |KeyOf(k)| == 3;
      assert KeyOf(k) == KeyOf(want);
      KeyInjective(k, want);
    }
    if k == Reviews(productId) {
      assert IsPrefix(r[0], KeyOf(k));
    }
    if k == Detail(productId) {
      assert IsPrefix(r[1], KeyOf(k));
    }
    if Hit(r, other) {
      var i :| 0 <= i < |r| && IsPrefix(r[i], other);
      assert other[0] == r[i][0];
    }
  }
}

=== FILE: query_keys.dfy ===
/** Query keys, prefix invalidation and the page-number rule shared by the
    data hooks (src/hooks/useProducts.ts, useOrders.ts, useAddress.ts). A key
    is an array of segments; a cached query is invalidated when one of the
    invalidated keys is a prefix of its own key. */
module QueryKeys {
  import opened Wrappers

  /** A key segment: a literal or identifier, or the `{ filters, sort }`
      object of a product list. Filter contents are opaque field/value pairs. */
  datatype Segment =
    | Name(text: string)
    | ListParams(filters: Option<map<string, string>>, sort: Option<string>)

  type Key = seq<Segment>

  predicate IsPrefix(p: Key, k: Key) {
    |p| <= |k| && k[..|p|] == p
  }

  predicate ProperPrefix(p: Key, k: Key) {
    IsPrefix(p, k) && |p| < |k|
  }

  /** `invalidateQueries({ queryKey: p })` for each `p` in order: does any of
      them reach the cached query `k`? */
  predicate Hit(invalidated: seq<Key>, k: Key) {
    exists i :: 0 <= i < |invalidated| && IsPrefix(invalidated[i], k)
  }

  /** Every key built by appending to `p` starts with `p`. */
  lemma ExtendIsPrefix(p: Key, rest: Key)
    ensures IsPrefix(p, p + rest)
    ensures |rest| > 0 ==> ProperPrefix(p, p + rest)
  {
    assert (p + rest)[..|p|] == p;
  }

  /** A hit by a list of keys is a hit by one of its parts. */
  lemma HitConcat(a: seq<Key>, b: seq<Key>, k: Key)
    ensures Hit(a + b, k) <==> Hit(a, k) || Hit(b, k)
  {
    if Hit(a + b, k) {
      var i :| 0 <= i < |a + b| && IsPrefix((a + b)[i], k);
      if i < |a| {
        assert IsPrefix(a[i], k);
      } else {
        assert IsPrefix(b[i - |a|], k);
      }
    }
    if Hit(a, k) {
      var i :| 0 <= i < |a| && IsPrefix(a[i], k);
      assert IsPrefix((a + b)[i], k);
    }
    if Hit(b, k) {
      var i :| 0 <= i < |b| && IsPrefix(b[i], k);
      assert (a + b)[|a| + i] == b[i];
      assert IsPrefix((a + b)[|a| + i], k);
    }
  }

  // ------------------------------------------------------------- paging

  /** The first page every infinite query asks for. */
  const INITIAL_PAGE: int := 1

  /** The `pagination` block of a paginated response. */
  datatype Pagination = Pagination(page: int, limit: int, total: int, totalPages: int, hasMore: bool)

  /** `getNextPageParam`: one past the page just received while the server
      reports more. */
  function NextPageParam(p: Pagination): (next: Option<int>)
    ensures next.Some? <==> p.hasMore
    ensures next.Some? ==> next.value == p.page + 1
  {
    if p.hasMore then Some(p.page + 1) else None
  }

  /** The page numbers requested when the list is scrolled `budget` times,
      starting from `page`, with `server` answering each request. */
  function PagesFetched(server: int -> Pagination, page: int, budget: nat): (r: seq<int>)
    ensures |r| <= budget
    ensures budget > 0 ==> |r| > 0 && r[0] == page
    decreases budget
  {
    if budget == 0 then []
    else
      match NextPageParam(server(page))
      case None => [page]
      case Some(next) => [page] + PagesFetched(server, next, budget - 1)
  }

  /** A server that echoes the requested page and reports more exactly while
      the page is below `totalPages`. */
  ghost predicate Faithful(server: int -> Pagination, totalPages: int) {
    forall p :: server(p).page == p && (server(p).hasMore <==> p < totalPages)
  }

  function Min(a: int, b: int): int {
    if a < b then a else b
  }

  function Max(a: int, b: int): int {
    if a < b then b else a
  }

  /** Against a faithful server, scrolling requests consecutive pages from
      `page` on, each once, and stops at the last page; the first request is
      made even when there are no pages. */
  lemma {:induction false} FaithfulWalk(server: int -> Pagination, totalPages: int, page: int, budget: nat)
    requires Faithful(server, totalPages)
    ensures var n := if budget == 0 then 0 else Min(budget, Max(totalPages - page + 1, 1));
      PagesFetched(server, page, budget) == seq(n, i => page + i)
    decreases budget
  {
    if budget > 0 {
      var n := Min(budget, Max(totalPages - page + 1, 1));
      if page < totalPages {
        FaithfulWalk(server, totalPages, page + 1, budget - 1);
        var rest := PagesFetched(server, page + 1, budget - 1);
        assert PagesFetched(server, page, budget) == [page] + rest;
        assert rest == seq(n - 1, i => page + 1 + i);
      } else {
        assert PagesFetched(server, page, budget) == [page];
      }
    }
  }

  /** Scrolling an infinite query to the end fetches pages 1 to `totalPages`. */
  lemma ScrollToEnd(server: int -> Pagination, totalPages: int, budget: nat)
    requires Faithful(server, totalPages) && 1 <= totalPages <= budget
    ensures PagesFetched(server, INITIAL_PAGE, budget) == seq(totalPages, i => i + 1)
  {
    FaithfulWalk(server, totalPages, INITIAL_PAGE, budget);
  }

  /** The paging options of an infinite query. */
  datatype Paging = Paging(initialPage: int, pageSize: nat)
}

=== FILE: seqs.dfy ===
/** Sequence helpers shared by the stores: `Array.prototype.filter` as a
    recursive function, and the facts about it the stores rely on. */
module Seqs {

  /** The elements of `s` satisfying `keep`, in their original order. */
  function Filter<T>(s: seq<T>, keep: T -> bool): (r: seq<T>)
    ensures |r| <= |s|
    ensures forall i :: 0 <= i < |r| ==> r[i] in s && keep(r[i])
    ensures forall i :: 0 <= i < |s| && keep(s[i]) ==> s[i] in r
  {
    if |s| == 0 then []
    else if keep(s[0]) then [s[0]] + Filter(s[1..], keep)
    else Filter(s[1..], keep)
  }

  /** Filtering distributes over concatenation: the filter keeps relative order. */
  lemma {:induction false} FilterConcat<T>(a: seq<T>, b: seq<T>, keep: T -> bool)
    ensures Filter(a + b, keep) == Filter(a, keep) + Filter(b, keep)
  {
    if |a| == 0 {
      assert a + b == b;
    } else {
      assert (a + b)[0] == a[0];
      assert (a + b)[1..] == a[1..] + b;
      FilterConcat(a[1..], b, keep);
    }
  }

  /** A filter that rejects nothing is the identity. */
  lemma {:induction false} FilterKeepsAll<T>(s: seq<T>, keep: T -> bool)
    requires forall i :: 0 <= i < |s| ==> keep(s[i])
    ensures Filter(s, keep) == s
  {
    if |s| > 0 {
      FilterKeepsAll(s[1..], keep);
    }
  }

  /** The number of positions at which `x` occurs. */
  function Occurrences<T(==)>(s: seq<T>, x: T): (n: nat)
    ensures n <= |s|
    ensures n == 0 <==> x !in s
  {
    if |s| == 0 then 0
    else (if s[0] == x then 1 else 0) + Occurrences(s[1..], x)
  }

  /** No value occurs twice. */
  predicate Distinct<T(==)>(s: seq<T>) {
    forall i, j :: 0 <= i < j < |s| ==> s[i] != s[j]
  }
}

=== FILE: types.dfy ===
/** The domain records shared by the stores (src/types/index.ts). Only the fields
    the stores read or write are kept; everything else in a product snapshot is
    carried along unchanged and therefore needs no representation here. */
module Types {
  import opened Wrappers

  datatype Product = Product(id: string, name: string, price: real)

  datatype ProductVariant = ProductVariant(id: string, name: string)

  /** A cart line. `quantity` is any integer: the store itself never rejects a
      quantity below one. */
  datatype CartItem = CartItem(
    id: string,
    product: Product,
    variant: Option<ProductVariant>,
    quantity: int,
    addedAt: string)

  datatype Cart = Cart(
    items: seq<CartItem>,
    subtotal: real,
    discount: real,
    tax: real,
    total: real,
    itemCount: int)

  datatype WishlistItem = WishlistItem(id: string, product: Product, addedAt: string)

  datatype User = User(
    id: string,
    email: string,
    name: string,
    phone: Option<string>,
    avatar: Option<string>,
    createdAt: string,
    updatedAt: string)

  /** A `Partial<User>`: every present field overrides the stored one. */
  datatype UserPatch = UserPatch(
    id: Option<string>,
    email: Option<string>,
    name: Option<string>,
    phone: Option<string>,
    avatar: Option<string>,
    createdAt: Option<string>,
    updatedAt: Option<string>)

  datatype AuthTokens = AuthTokens(accessToken: string, refreshToken: string, expiresIn: int)

  /** A rejection as seen by a store: only its `message` is read, and the empty
      string stands for a missing message. */
  datatype Error = Error(message: string)

  /** `error.message || fallback`: the message when it is non-empty, else the
      fallback. */
  function MessageOr(e: Error, fallback: string): (m: string)
    ensures e.message != "" ==> m == e.message
    ensures e.message == "" ==> m == fallback
    ensures fallback != "" ==> m != ""
  {
    if e.message != "" then e.message else fallback
  }
}

=== FILE: ui_store.dfy ===
/** The UI-preferences store (src/store/uiStore.ts): theme, onboarding flag,
    active filters and a bounded, most-recent-first search history, with the
    persisted parts reloaded at start-up. */
module UIStore {
  import opened Wrappers
  import opened Persistence
  import opened Seqs

  /** The number of search queries remembered. */
  const MAX_SEARCH_HISTORY: nat := 10

  datatype ThemeMode = Light | Dark | System

  function ModeName(m: ThemeMode): (s: string)
    ensures s != ""
  {
    match m
    case Light => "light"
    case Dark => "dark"
    case System => "system"
  }

  /** Distinct modes are stored under distinct names, so a reload can tell
      them apart. */
  lemma ModeNameInjective(a: ThemeMode, b: ThemeMode)
    ensures ModeName(a) == ModeName(b) <==> a == b
  {
  }

  /** The theme is kept as the stored string: a reload installs whatever
      non-empty string the cache holds. Filter values are opaque strings. */
  datatype UIState = UIState(
    themeMode: string,
    isOnboardingCompleted: bool,
    activeFilters: map<string, string>,
    searchHistory: seq<string>)

  const INITIAL: UIState := UIState("system", false, map[], [])

  datatype Step = Step(state: UIState, storage: Storage)

  // -------------------------------------------------------- search history

  function Differs(query: string): string -> bool {
    (q: string) => q != query
  }

  /** `history.filter(q => q !== query)`. */
  function Without(history: seq<string>, query: string): (r: seq<string>)
    ensures query !in r
    ensures forall i :: 0 <= i < |r| ==> r[i] in history
    ensures forall i :: 0 <= i < |history| && history[i] != query ==> history[i] in r
  {
    Filter(history, Differs(query))
  }

  /** `[query, ...history.filter(q => q !== query)].slice(0, 10)`. */
  function AddQuery(history: seq<string>, query: string): (r: seq<string>)
    ensures 0 < |r| <= MAX_SEARCH_HISTORY
    ensures r[0] == query
    ensures Occurrences(r, query) == 1
    ensures |r| == if |Without(history, query)| < MAX_SEARCH_HISTORY then |Without(history, query)| + 1 else MAX_SEARCH_HISTORY
    ensures r[1..] == Without(history, query)[..|r| - 1]
    ensures Distinct(history) ==> Distinct(r)
  {
    var rest := Without(history, query);
    var full := [query] + rest;
    var r := if |full| <= MAX_SEARCH_HISTORY then full else full[..MAX_SEARCH_HISTORY];
    assert r[1..] == rest[..|r| - 1];
    assert query !in r[1..];
    assert Distinct(history) ==> Distinct(r) by {
      if Distinct(history) {
        FilterDistinct(history, Differs(query));
      }
    }
    r
  }

  lemma {:induction false} FilterDistinct(s: seq<string>, keep: string -> bool)
    requires Distinct(s)
    ensures Distinct(Filter(s, keep))
  {
    if |s| > 0 {
      FilterDistinct(s[1..], keep);
      assert s[0] !in s[1..];
    }
  }

  /** Adding the same query twice in a row is the same as adding it once. */
  lemma AddQueryIdempotent(history: seq<string>, query: string)
    ensures AddQuery(AddQuery(history, query), query) == AddQuery(history, query)
  {
    var r := AddQuery(history, query);
    assert r == [query] + r[1..];
    FilterConcat([query], r[1..], Differs(query));
    FilterKeepsAll(r[1..], Differs(query));
    assert Without([query], query) == [];
    assert Without(r, query) == r[1..];
  }

  // --------------------------------------------------------------- actions

  function SetThemeMode(st: UIState, storage: Storage, mode: ThemeMode): (r: Step)
    ensures r.state == st.(themeMode := ModeName(mode))
    ensures r.storage == Put(storage, THEME_MODE, Text(ModeName(mode)))
  {
    Step(st.(themeMode := ModeName(mode)), Put(storage, THEME_MODE, Text(ModeName(mode))))
  }

  function CompleteOnboarding(st: UIState, storage: Storage): (r: Step)
    ensures r.state == st.(isOnboardingCompleted := true)
    ensures r.storage == Put(storage, ONBOARDING_COMPLETED, Text("true"))
  {
    Step(st.(isOnboardingCompleted := true), Put(storage, ONBOARDING_COMPLETED, Text("true")))
  }

  /** `setFilters` replaces the filters wholesale; nothing is persisted. */
  function SetFilters(st: UIState, filters: map<string, string>): (r: UIState)
    ensures r.activeFilters == filters
    ensures r.(activeFilters := st.activeFilters) == st
  {
    st.(activeFilters := filters)
  }

  function ClearFilters(st: UIState): (r: UIState)
    ensures |r.activeFilters| == 0
    ensures r.(activeFilters := st.activeFilters) == st
  {
    st.(activeFilters := map[])
  }

  function AddSearchQuery(st: UIState, storage: Storage, query: string): (r: Step)
    ensures r.state.searchHistory == AddQuery(st.searchHistory, query)
    ensures r.state.(searchHistory := st.searchHistory) == st
    ensures r.storage == Put(storage, SEARCH_HISTORY, HistoryData(r.state.searchHistory))
  {
    var history := AddQuery(st.searchHistory, query);
    Step(st.(searchHistory := history), Put(storage, SEARCH_HISTORY, HistoryData(history)))
  }

  function ClearSearchHistory(st: UIState, storage: Storage): (r: Step)
    ensures r.state.searchHistory == []
    ensures r.state.(searchHistory := st.searchHistory) == st
    ensures r.storage == Remove(storage, SEARCH_HISTORY)
  {
    Step(st.(searchHistory := []), Remove(storage, SEARCH_HISTORY))
  }

  /** The text stored under `key`, if the cache holds one. */
  function CachedText(storage: Storage, key: string): (r: Option<string>)
    ensures r.Some? <==> key in storage.cache && storage.cache[key].Text?
    ensures r.Some? ==> r.value == storage.cache[key].text
  {
    if key in storage.cache && storage.cache[key].Text? then Some(storage.cache[key].text) else None
  }

  /** `loadUIState`: theme defaults to "system" when absent or empty, the
      onboarding flag is set only by the exact text "true", and the history
      defaults to empty. Filters are not persisted and stay as they are. */
  function LoadUIState(st: UIState, storage: Storage): (r: UIState)
    ensures r.activeFilters == st.activeFilters
    ensures r.isOnboardingCompleted <==> CachedText(storage, ONBOARDING_COMPLETED) == Some("true")
    ensures CachedText(storage, THEME_MODE).None? || CachedText(storage, THEME_MODE) == Some("") ==>
      r.themeMode == "system"
    ensures CachedText(storage, THEME_MODE).Some? && CachedText(storage, THEME_MODE) != Some("") ==>
      r.themeMode == CachedText(storage, THEME_MODE).value
    ensures SEARCH_HISTORY in storage.cache && storage.cache[SEARCH_HISTORY].HistoryData? ==>
      r.searchHistory == storage.cache[SEARCH_HISTORY].history
    ensures SEARCH_HISTORY !in storage.cache ==> r.searchHistory == []
  {
    var theme := CachedText(storage, THEME_MODE);
    var history := if SEARCH_HISTORY in storage.cache && storage.cache[SEARCH_HISTORY].HistoryData? then
      storage.cache[SEARCH_HISTORY].history else [];
    UIState(
      if theme.Some? && theme.value != "" then theme.value else "system",
      CachedText(storage, ONBOARDING_COMPLETED) == Some("true"),
      st.activeFilters,
      history)
  }

  // ------------------------------------------------------------ properties

  /** A restart, which starts from the initial state, reloads the theme, the
      onboarding flag and the search history the store shows. Filters are not
      persisted, so a restart brings them back empty. */
  predicate Synced(st: UIState, storage: Storage) {
    LoadUIState(INITIAL, storage) == st.(activeFilters := map[])
  }

  lemma InitialSynced(storage: Storage)
    requires THEME_MODE !in storage.cache && ONBOARDING_COMPLETED !in storage.cache && SEARCH_HISTORY !in storage.cache
    ensures Synced(INITIAL, storage)
  {
  }

  datatype UIAction =
    | SetTheme(mode: ThemeMode)
    | Onboard
    | Filters(filters: map<string, string>)
    | NoFilters
    | Search(query: string)
    | ForgetSearches

  function Apply(st: UIState, storage: Storage, a: UIAction): Step {
    match a
    case SetTheme(m) => SetThemeMode(st, storage, m)
    case Onboard => CompleteOnboarding(st, storage)
    case Filters(f) => Step(SetFilters(st, f), storage)
    case NoFilters => Step(ClearFilters(st), storage)
    case Search(q) => AddSearchQuery(st, storage, q)
    case ForgetSearches => ClearSearchHistory(st, storage)
  }

  /** Every action persists the theme, onboarding and history changes it makes,
      and the filter actions persist nothing: after any action a restart shows
      the same state with the filters emptied. */
  lemma ActionKeepsSynced(st: UIState, storage: Storage, a: UIAction)
    requires Synced(st, storage)
    ensures var s := Apply(st, storage, a); Synced(s.state, s.storage)
    ensures a.Filters? || a.NoFilters? ==> Apply(st, storage, a).storage == storage
  {
    match a
    case SetTheme(m) =>
      var s := Apply(st, storage, a);
      assert CachedText(s.storage, THEME_MODE) == Some(ModeName(m));
    case Onboard =>
    case Filters(f) =>
    case NoFilters =>
    case Search(q) =>
    case ForgetSearches =>
  }
}

=== FILE: validation.dfy ===
/** The form rules of src/utils/validation.ts as predicates on strings, and
    each schema as the ordered list of issues it reports. The anchored regular
    expressions used there are fixed-length sequences of character classes, and
    the unanchored ones are searches for one class; both are matched by small
    recursive functions proved against their declarative meaning. */
module Validation {
  import opened Wrappers

  // Validation limits (src/constants/index.ts:73-80)
  const PASSWORD_MIN_LENGTH: nat := 8
  const PHONE_LENGTH: nat := 10
  const OTP_LENGTH: nat := 6
  const PINCODE_LENGTH: nat := 6
  const NAME_MIN_LENGTH: nat := 2
  const NAME_MAX_LENGTH: nat := 50

  // ------------------------------------------------------- pattern matching

  /** A bracket class `[lo-hi]`; `\d` is `[0-9]`. */
  datatype CharClass = Range(lo: char, hi: char)

  predicate InClass(c: char, k: CharClass) {
    k.lo <= c <= k.hi
  }

  const DIGIT: CharClass := Range('0', '9')
  const UPPER: CharClass := Range('A', 'Z')
  const LOWER: CharClass := Range('a', 'z')

  function Repeat(k: CharClass, n: nat): (p: seq<CharClass>)
    ensures |p| == n && forall i :: 0 <= i < n ==> p[i] == k
  {
    seq(n, _ => k)
  }

  /** The meaning of an anchored fixed-length pattern `^k0 k1 ... $`. */
  predicate FullMatch(s: string, pattern: seq<CharClass>) {
    |s| == |pattern| && forall i :: 0 <= i < |s| ==> InClass(s[i], pattern[i])
  }

  /** The matcher: walk the string and the pattern together. */
  function Match(s: string, pattern: seq<CharClass>): (ok: bool)
    ensures ok <==> FullMatch(s, pattern)
  {
    if |s| == 0 || |pattern| == 0 then |s| == |pattern|
    else
      assert forall i :: 1 <= i < |s| ==> s[i] == s[1..][i - 1];
      InClass(s[0], pattern[0]) && Match(s[1..], pattern[1..])
  }

  /** An unanchored one-class pattern `/[lo-hi]/`: a left-to-right search. */
  function Search(s: string, k: CharClass): (found: bool)
    ensures found <==> exists i :: 0 <= i < |s| && InClass(s[i], k)
  {
    if |s| == 0 then false
    else
      assert forall i :: 1 <= i < |s| ==> s[i] == s[1..][i - 1];
      InClass(s[0], k) || Search(s[1..], k)
  }

  /** `^[6-9]\d{9}$` */
  const PHONE_PATTERN: seq<CharClass> := [Range('6', '9')] + Repeat(DIGIT, 9)

  /** `^[1-9][0-9]{5}$` */
  const PINCODE_PATTERN: seq<CharClass> := [Range('1', '9')] + Repeat(DIGIT, 5)

  predicate IsDigit(c: char) {
    '0' <= c <= '9'
  }

  // ------------------------------------------------------------ field rules

  predicate ValidPhone(s: string) {
    Match(s, PHONE_PATTERN)
  }

  predicate ValidPincode(s: string) {
    Match(s, PINCODE_PATTERN)
  }

  /** Length 6 and `^\d+$`. */
  predicate ValidOtp(s: string) {
    |s| == OTP_LENGTH && |s| > 0 && Match(s, Repeat(DIGIT, |s|))
  }

  /** At least eight characters with an upper-case letter, a lower-case letter
      and a digit somewhere. */
  predicate StrongPassword(s: string) {
    |s| >= PASSWORD_MIN_LENGTH && Search(s, UPPER) && Search(s, LOWER) && Search(s, DIGIT)
  }

  predicate LengthBetween(s: string, lo: nat, hi: nat) {
    lo <= |s| <= hi
  }

  predicate ValidName(s: string) {
    LengthBetween(s, NAME_MIN_LENGTH, NAME_MAX_LENGTH)
  }

  /** A mobile number: ten characters, the first 6 to 9, the rest digits. */
  lemma PhoneRule(s: string)
    ensures ValidPhone(s) <==> |s| == PHONE_LENGTH && '6' <= s[0] <= '9' && forall i :: 1 <= i < 10 ==> IsDigit(s[i])
  {
  }

  /** A postal code: six characters, the first 1 to 9, the rest digits. */
  lemma PincodeRule(s: string)
    ensures ValidPincode(s) <==> |s| == PINCODE_LENGTH && '1' <= s[0] <= '9' && forall i :: 1 <= i < 6 ==> IsDigit(s[i])
  {
  }

  /** A one-time code: exactly six digits. */
  lemma OtpRule(s: string)
    ensures ValidOtp(s) <==> |s| == OTP_LENGTH && forall i :: 0 <= i < |s| ==> IsDigit(s[i])
  {
  }

  lemma PasswordRule(s: string)
    ensures StrongPassword(s) <==>
      && |s| >= 8
      && (exists i :: 0 <= i < |s| && 'A' <= s[i] <= 'Z')
      && (exists i :: 0 <= i < |s| && 'a' <= s[i] <= 'z')
      && (exists i :: 0 <= i < |s| && IsDigit(s[i]))
  {
  }

  // ---------------------------------------------------------------- schemas

  datatype Field =
    | Name | Email | Phone | Password | ConfirmPassword | Otp
    | AddressLine1 | AddressLine2 | City | State | Pincode
    | Rating | Title | Comment | CurrentPassword | NewPassword

  datatype Issue = Issue(field: Field, message: string)

  function Check(ok: bool, field: Field, message: string): (r: seq<Issue>)
    ensures ok <==> r == []
    ensures !ok ==> r == [Issue(field, message)]
  {
    if ok then [] else [Issue(field, message)]
  }

  /** The checks of a new password, in the order the schema lists them. */
  function PasswordIssues(field: Field, s: string): (r: seq<Issue>)
    ensures r == [] <==> StrongPassword(s)
  {
    Check(|s| >= PASSWORD_MIN_LENGTH, field, "Password must be at least 8 characters")
    + Check(Search(s, UPPER), field, "Password must contain at least one uppercase letter")
    + Check(Search(s, LOWER), field, "Password must contain at least one lowercase letter")
    + Check(Search(s, DIGIT), field, "Password must contain at least one number")
  }

  /** Name limits with the given messages. */
  function NameIssues(s: string, tooShort: string, tooLong: string): (r: seq<Issue>)
    ensures r == [] <==> ValidName(s)
  {
    Check(|s| >= NAME_MIN_LENGTH, Name, tooShort) + Check(|s| <= NAME_MAX_LENGTH, Name, tooLong)
  }

  /** The verdict of the e-mail format check is an input: it belongs to the
      validation library. */
  datatype LoginForm = LoginForm(email: string, password: string)

  function LoginIssues(f: LoginForm, emailWellFormed: bool): (r: seq<Issue>)
    ensures r == [] <==> |f.email| >= 1 && emailWellFormed && |f.password| >= PASSWORD_MIN_LENGTH
  {
    Check(|f.email| >= 1, Email, "Email is required")
    + Check(emailWellFormed, Email, "Invalid email address")
    + Check(|f.password| >= PASSWORD_MIN_LENGTH, Password, "Password must be at least 8 characters")
  }

  datatype SignupForm = SignupForm(name: string, email: string, phone: Option<string>, password: string, confirmPassword: string)

  /** The signup phone may be absent or empty (`!val || ...`). */
  predicate SignupPhoneOk(phone: Option<string>) {
    phone.None? || phone.value == "" || ValidPhone(phone.value)
  }

  /** The field checks of the signup schema, before the object-level match. */
  function SignupFieldIssues(f: SignupForm, emailWellFormed: bool): (r: seq<Issue>)
    ensures r == [] <==>
      && ValidName(f.name) && |f.email| >= 1 && emailWellFormed
      && SignupPhoneOk(f.phone) && StrongPassword(f.password)
    ensures forall i :: 0 <= i < |r| ==> r[i].field != ConfirmPassword
  {
    NameIssues(f.name, "Name must be at least 2 characters", "Name must not exceed 50 characters")
    + Check(|f.email| >= 1, Email, "Email is required")
    + Check(emailWellFormed, Email, "Invalid email address")
    + Check(SignupPhoneOk(f.phone), Phone, "Invalid phone number")
    + PasswordIssues(Password, f.password)
  }

  /** The `.refine` on the whole object, reported on `confirmPassword`. */
  function WithMatch(fieldIssues: seq<Issue>, password: string, confirm: string): (r: seq<Issue>)
    requires forall i :: 0 <= i < |fieldIssues| ==> fieldIssues[i].field != ConfirmPassword
    ensures r == [] <==> fieldIssues == [] && password == confirm
    ensures Issue(ConfirmPassword, "Passwords don't match") in r <==> password != confirm
  {
    fieldIssues + Check(password == confirm, ConfirmPassword, "Passwords don't match")
  }

  /** The signup schema; the password match is reported on `confirmPassword`. */
  function SignupIssues(f: SignupForm, emailWellFormed: bool): (r: seq<Issue>)
    ensures r == [] <==>
      && ValidName(f.name) && |f.email| >= 1 && emailWellFormed
      && SignupPhoneOk(f.phone) && StrongPassword(f.password)
      && f.password == f.confirmPassword
    ensures Issue(ConfirmPassword, "Passwords don't match") in r <==> f.password != f.confirmPassword
  {
    WithMatch(SignupFieldIssues(f, emailWellFormed), f.password, f.confirmPassword)
  }

  datatype OtpForm = OtpForm(otp: string)

  function OtpIssues(f: OtpForm): (r: seq<Issue>)
    ensures r == [] <==> ValidOtp(f.otp)
  {
    Check(|f.otp| == OTP_LENGTH, Otp, "OTP must be 6 digits")
    + Check(|f.otp| > 0 && Match(f.otp, Repeat(DIGIT, |f.otp|)), Otp, "OTP must contain only numbers")
  }

  datatype AddressType = Home | Work | Other

  datatype AddressForm = AddressForm(
    name: string, phone: string, addressLine1: string, addressLine2: Option<string>,
    city: string, state: string, pincode: string, kind: AddressType, isDefault: Option<bool>)

  predicate AddressValid(f: AddressForm) {
    && ValidName(f.name) && ValidPhone(f.phone)
    && LengthBetween(f.addressLine1, 5, 200)
    && (f.addressLine2.None? || |f.addressLine2.value| <= 200)
    && LengthBetween(f.city, 2, 100) && LengthBetween(f.state, 2, 100)
    && ValidPincode(f.pincode)
  }

  function AddressIssues(f: AddressForm): (r: seq<Issue>)
    ensures r == [] <==> AddressValid(f)
  {
    NameIssues(f.name, "Name is required", "Name is too long")
    + Check(ValidPhone(f.phone), Phone, "Invalid phone number")
    + Check(|f.addressLine1| >= 5, AddressLine1, "Address is required")
    + Check(|f.addressLine1| <= 200, AddressLine1, "Address is too long")
    + Check(f.addressLine2.None? || |f.addressLine2.value| <= 200, AddressLine2, "Address is too long")
    + Check(|f.city| >= 2, City, "City is required")
    + Check(|f.city| <= 100, City, "City name is too long")
    + Check(|f.state| >= 2, State, "State is required")
    + Check(|f.state| <= 100, State, "State name is too long")
    + Check(ValidPincode(f.pincode), Pincode, "Invalid pincode")
  }

  /** `isDefault` defaults to false when absent. */
  function IsDefault(f: AddressForm): (b: bool)
    ensures f.isDefault.None? ==> !b
  {
    f.isDefault.GetOr(false)
  }

  datatype ReviewForm = ReviewForm(rating: real, title: Option<string>, comment: string)

  function ReviewIssues(f: ReviewForm): (r: seq<Issue>)
    ensures r == [] <==>
      1.0 <= f.rating <= 5.0 && (f.title.None? || |f.title.value| <= 100) && LengthBetween(f.comment, 10, 1000)
  {
    Check(f.rating >= 1.0, Rating, "Rating is required")
    + Check(f.rating <= 5.0, Rating, "Rating must be between 1 and 5")
    + Check(f.title.None? || |f.title.value| <= 100, Title, "Title is too long")
    + Check(|f.comment| >= 10, Comment, "Review must be at least 10 characters")
    + Check(|f.comment| <= 1000, Comment, "Review is too long")
  }

  datatype ProfileForm = ProfileForm(name: string, email: string, phone: Option<string>)

  /** The profile phone may be absent, but an empty one fails the pattern. */
  function ProfileIssues(f: ProfileForm, emailWellFormed: bool): (r: seq<Issue>)
    ensures r == [] <==> ValidName(f.name) && emailWellFormed && (f.phone.None? || ValidPhone(f.phone.value))
  {
    NameIssues(f.name, "Name must be at least 2 characters", "Name must not exceed 50 characters")
    + Check(emailWellFormed, Email, "Invalid email address")
    + Check(f.phone.None? || ValidPhone(f.phone.value), Phone, "Invalid phone number")
  }

  datatype ChangePasswordForm = ChangePasswordForm(currentPassword: string, newPassword: string, confirmPassword: string)

  function ChangePasswordIssues(f: ChangePasswordForm): (r: seq<Issue>)
    ensures r == [] <==> |f.currentPassword| >= 1 && StrongPassword(f.newPassword) && f.newPassword == f.confirmPassword
    ensures Issue(ConfirmPassword, "Passwords don't match") in r <==> f.newPassword != f.confirmPassword
  {
    var fieldIssues :=
      Check(|f.currentPassword| >= 1, CurrentPassword, "Current password is required")
      + PasswordIssues(NewPassword, f.newPassword);
    assert forall i :: 0 <= i < |fieldIssues| ==> fieldIssues[i].field != ConfirmPassword;
    WithMatch(fieldIssues, f.newPassword, f.confirmPassword)
  }

  /** An empty phone passes the signup schema but fails the profile schema. */
  lemma EmptyPhoneDiffers()
    ensures SignupPhoneOk(Some(""))
    ensures !ValidPhone("")
  {
  }
}

=== FILE: wishlist_store.dfy ===
/** The wishlist store (src/store/wishlistStore.ts): a list with set-like
    semantics keyed by product id, optimistic add and remove mirrored to the
    wishlist endpoints, and a reload on failure. */
module WishlistStore {
  import opened Wrappers
  import opened Types
  import opened Persistence
  import opened Seqs

  datatype WishlistState = WishlistState(items: seq<WishlistItem>, isLoading: bool, error: Option<string>)

  const INITIAL: WishlistState := WishlistState([], false, None)

  /** The wishlist endpoints the store calls. There is no endpoint for toggling. */
  datatype WishlistRequest =
    | GetWishlist
    | AddRequest(productId: string)
    | RemoveRequest(itemId: string)
    | ClearRequest

  datatype Step = Step(state: WishlistState, storage: Storage, requests: seq<WishlistRequest>, thrown: Option<Error>)

  // ------------------------------------------------------------ membership

  /** `items.some(item => item.product.id === productId)`. */
  predicate IsInWishlist(items: seq<WishlistItem>, productId: string) {
    exists i :: 0 <= i < |items| && items[i].product.id == productId
  }

  /** The position `items.find(item => item.product.id === productId)` returns. */
  function Find(items: seq<WishlistItem>, productId: string): (r: Option<nat>)
    ensures r.Some? <==> IsInWishlist(items, productId)
    ensures r.Some? ==> r.value < |items| && items[r.value].product.id == productId
    ensures r.Some? ==> forall j :: 0 <= j < r.value ==> items[j].product.id != productId
  {
    if |items| == 0 then None
    else if items[0].product.id == productId then Some(0)
    else
      var rest := Find(items[1..], productId);
      assert forall j :: 1 <= j < |items| ==> items[j] == items[1..][j - 1];
      if rest.Some? then Some(rest.value + 1) else None
  }

  /** No two items hold the same product. */
  predicate UniqueProducts(items: seq<WishlistItem>) {
    forall i, j :: 0 <= i < j < |items| ==> items[i].product.id != items[j].product.id
  }

  /** No item carries the id `id`. */
  predicate FreshId(items: seq<WishlistItem>, id: string) {
    forall i :: 0 <= i < |items| ==> items[i].id != id
  }

  // ------------------------------------------------------------ list edits

  function LacksId(id: string): WishlistItem -> bool {
    (item: WishlistItem) => item.id != id
  }

  /** `items.filter(item => item.id !== itemId)`. */
  function RemoveById(items: seq<WishlistItem>, itemId: string): (r: seq<WishlistItem>)
    ensures forall i :: 0 <= i < |r| ==> r[i].id != itemId && r[i] in items
    ensures forall i :: 0 <= i < |items| && items[i].id != itemId ==> items[i] in r
  {
    Filter(items, LacksId(itemId))
  }

  /** `items.map(item => item.id === id ? replacement : item)`. */
  function ReplaceById(items: seq<WishlistItem>, id: string, replacement: WishlistItem): (r: seq<WishlistItem>)
    ensures |r| == |items|
    ensures forall i :: 0 <= i < |items| && items[i].id == id ==> r[i] == replacement
    ensures forall i :: 0 <= i < |items| && items[i].id != id ==> r[i] == items[i]
  {
    seq(|items|, i requires 0 <= i < |items| => if items[i].id == id then replacement else items[i])
  }

  /** The optimistic list of `addItem`: the temporary item appended at the end.
      It keeps products unique when the product was absent. */
  function OptimisticAdd(items: seq<WishlistItem>, temp: WishlistItem): (r: seq<WishlistItem>)
    ensures |r| == |items| + 1 && r[..|items|] == items && r[|items|] == temp
    ensures UniqueProducts(items) && !IsInWishlist(items, temp.product.id) ==> UniqueProducts(r)
  {
    assert (items + [temp])[..|items|] == items;
    items + [temp]
  }

  /** When the temporary id is fresh, swapping in the server's item changes only
      the last position. */
  lemma SwapTemporaryItem(items: seq<WishlistItem>, temp: WishlistItem, server: WishlistItem)
    requires FreshId(items, temp.id)
    ensures ReplaceById(OptimisticAdd(items, temp), temp.id, server) == items + [server]
  {
    var r := ReplaceById(OptimisticAdd(items, temp), temp.id, server);
    assert forall i :: 0 <= i < |items| ==> r[i] == items[i];
  }

  // --------------------------------------------------------------- actions

  function CachedWishlist(storage: Storage): (r: Option<seq<WishlistItem>>)
    ensures r.Some? <==> WISHLIST_DATA in storage.cache && storage.cache[WISHLIST_DATA].WishlistData?
    ensures r.Some? ==> r.value == storage.cache[WISHLIST_DATA].items
  {
    if WISHLIST_DATA in storage.cache && storage.cache[WISHLIST_DATA].WishlistData? then
      Some(storage.cache[WISHLIST_DATA].items)
    else None
  }

  /** `loadWishlist`: cached list first, then the fetched list wins and is
      persisted; a failed fetch keeps what is installed. */
  function LoadWishlist(st: WishlistState, storage: Storage, fetched: Result<seq<WishlistItem>, Error>): (r: Step)
    ensures r.requests == [GetWishlist] && r.thrown == None
    ensures !r.state.isLoading && r.state.error == None
    ensures fetched.Success? ==> (r.state.items == fetched.value
      && r.storage == Put(storage, WISHLIST_DATA, WishlistData(fetched.value)))
    ensures fetched.Failure? ==> (r.storage == storage
      && r.state.items == CachedWishlist(storage).GetOr(st.items))
  {
    var loading := st.(isLoading := true, error := None);
    var cached := CachedWishlist(storage);
    var seeded := if cached.Some? then loading.(items := cached.value, isLoading := false) else loading;
    match fetched
    case Success(items) => Step(seeded.(items := items, isLoading := false), Put(storage, WISHLIST_DATA, WishlistData(items)), [GetWishlist], None)
    case Failure(_) => Step(seeded.(isLoading := false), storage, [GetWishlist], None)
  }

  /** `addItem(product)` with the fresh temporary id and timestamp passed in. */
  function AddItem(st: WishlistState, storage: Storage, product: Product, tempId: string, now: string,
                   response: Result<WishlistItem, Error>, reload: Result<seq<WishlistItem>, Error>): (r: Step)
    ensures IsInWishlist(st.items, product.id) ==> r == Step(st, storage, [], None)
    ensures !IsInWishlist(st.items, product.id) && response.Success? ==> (
      && r.state.items == ReplaceById(st.items + [WishlistItem(tempId, product, now)], tempId, response.value)
      && CachedWishlist(r.storage) == Some(r.state.items)
      && r.requests == [AddRequest(product.id)] && r.thrown == None)
    ensures !IsInWishlist(st.items, product.id) && response.Failure? ==> (
      && r.requests == [AddRequest(product.id), GetWishlist]
      && r.thrown == Some(response.error)
      && r.state.error == Some(MessageOr(response.error, "Failed to add to wishlist"))
      && r.state.items == (if reload.Success? then reload.value else st.items + [WishlistItem(tempId, product, now)]))
  {
    if IsInWishlist(st.items, product.id) then Step(st, storage, [], None)
    else
      var temp := WishlistItem(tempId, product, now);
      var optimistic := OptimisticAdd(st.items, temp);
      var optimisticStorage := Put(storage, WISHLIST_DATA, WishlistData(optimistic));
      match response
      case Success(added) =>
        var updated := ReplaceById(optimistic, tempId, added);
        Step(st.(items := updated), Put(optimisticStorage, WISHLIST_DATA, WishlistData(updated)), [AddRequest(product.id)], None)
      case Failure(e) =>
        var reloaded := LoadWishlist(st.(items := optimistic), optimisticStorage, reload);
        Step(reloaded.state.(error := Some(MessageOr(e, "Failed to add to wishlist"))), reloaded.storage,
             [AddRequest(product.id)] + reloaded.requests, Some(e))
  }

  /** `removeItem(itemId)`: the filtered list stays on success. */
  function RemoveItem(st: WishlistState, storage: Storage, itemId: string,
                      response: Outcome<Error>, reload: Result<seq<WishlistItem>, Error>): (r: Step)
    ensures response.Pass? ==> (
      && r.state == st.(items := RemoveById(st.items, itemId))
      && CachedWishlist(r.storage) == Some(RemoveById(st.items, itemId))
      && r.requests == [RemoveRequest(itemId)] && r.thrown == None)
    ensures response.Fail? ==> (
      && r.requests == [RemoveRequest(itemId), GetWishlist]
      && r.thrown == Some(response.error)
      && r.state.error == Some(MessageOr(response.error, "Failed to remove from wishlist"))
      && r.state.items == (if reload.Success? then reload.value else RemoveById(st.items, itemId)))
  {
    var optimistic := RemoveById(st.items, itemId);
    var optimisticStorage := Put(storage, WISHLIST_DATA, WishlistData(optimistic));
    match response
    case Pass => Step(st.(items := optimistic), optimisticStorage, [RemoveRequest(itemId)], None)
    case Fail(e) =>
      var reloaded := LoadWishlist(st.(items := optimistic), optimisticStorage, reload);
      Step(reloaded.state.(error := Some(MessageOr(e, "Failed to remove from wishlist"))), reloaded.storage,
           [RemoveRequest(itemId)] + reloaded.requests, Some(e))
  }

  /** `toggleWishlist(product)`: remove the first item holding the product, or
      add the product; it has no request of its own. */
  function ToggleWishlist(st: WishlistState, storage: Storage, product: Product, tempId: string, now: string,
                          addResponse: Result<WishlistItem, Error>, removeResponse: Outcome<Error>,
                          reload: Result<seq<WishlistItem>, Error>): (r: Step)
    ensures IsInWishlist(st.items, product.id) ==>
      r == RemoveItem(st, storage, st.items[Find(st.items, product.id).value].id, removeResponse, reload)
    ensures !IsInWishlist(st.items, product.id) ==>
      r == AddItem(st, storage, product, tempId, now, addResponse, reload)
    ensures forall k :: 0 <= k < |r.requests| ==> !r.requests[k].ClearRequest?
  {
    match Find(st.items, product.id)
    case Some(i) => RemoveItem(st, storage, st.items[i].id, removeResponse, reload)
    case None => AddItem(st, storage, product, tempId, now, addResponse, reload)
  }

  /** `clearWishlist`: the list is emptied whether or not the request fails. */
  function ClearWishlist(st: WishlistState, storage: Storage, response: Outcome<Error>): (r: Step)
    ensures r.state.items == [] && r.state.isLoading == st.isLoading
    ensures r.storage == Remove(storage, WISHLIST_DATA)
    ensures r.requests == [ClearRequest] && r.thrown == None
    ensures response.Pass? ==> r.state.error == st.error
    ensures response.Fail? ==> r.state.error == Some(MessageOr(response.error, "Failed to clear wishlist"))
  {
    match response
    case Pass => Step(st.(items := []), Remove(storage, WISHLIST_DATA), [ClearRequest], None)
    case Fail(e) => Step(st.(items := [], error := Some(MessageOr(e, "Failed to clear wishlist"))), Remove(storage, WISHLIST_DATA), [ClearRequest], None)
  }

  // ------------------------------------------------------------ properties

  /** An add that goes through keeps products unique in the optimistic list. */
  lemma AddKeepsProductsUnique(items: seq<WishlistItem>, product: Product, tempId: string, now: string)
    requires UniqueProducts(items) && !IsInWishlist(items, product.id)
    ensures UniqueProducts(OptimisticAdd(items, WishlistItem(tempId, product, now)))
  {
  }

  /** Removing an item from a list with unique products removes its product. */
  lemma {:induction false} RemoveDropsProduct(items: seq<WishlistItem>, i: nat)
    requires UniqueProducts(items) && i < |items|
    ensures !IsInWishlist(RemoveById(items, items[i].id), items[i].product.id)
  {
    var r := RemoveById(items, items[i].id);
    forall k | 0 <= k < |r|
      ensures r[k].product.id != items[i].product.id
    {
      var j :| 0 <= j < |items| && items[j] == r[k];
      assert items[j].id != items[i].id;
    }
  }

  /** With unique products, toggling a product that is present and whose
      removal succeeds leaves it absent. */
  lemma ToggleRemoves(st: WishlistState, storage: Storage, product: Product, tempId: string, now: string,
                      addResponse: Result<WishlistItem, Error>, reload: Result<seq<WishlistItem>, Error>)
    requires UniqueProducts(st.items) && IsInWishlist(st.items, product.id)
    ensures var r := ToggleWishlist(st, storage, product, tempId, now, addResponse, Pass, reload);
      !IsInWishlist(r.state.items, product.id) && r.thrown == None
  {
    RemoveDropsProduct(st.items, Find(st.items, product.id).value);
  }

  /** Toggling an absent product twice, both requests succeeding, restores the
      list when the temporary and the server ids are fresh and the server item
      holds the product. */
  lemma ToggleTwiceRestores(st: WishlistState, storage: Storage, product: Product, tempId: string, now: string,
                            server: WishlistItem, reload: Result<seq<WishlistItem>, Error>,
                            tempId2: string, now2: string, addResponse2: Result<WishlistItem, Error>)
    requires !IsInWishlist(st.items, product.id)
    requires FreshId(st.items, tempId) && FreshId(st.items, server.id)
    requires server.product.id == product.id
    ensures var first := ToggleWishlist(st, storage, product, tempId, now, Success(server), Pass, reload);
      var second := ToggleWishlist(first.state, first.storage, product, tempId2, now2, addResponse2, Pass, reload);
      second.state.items == st.items && second.requests == [RemoveRequest(server.id)]
  {
    var temp := WishlistItem(tempId, product, now);
    SwapTemporaryItem(st.items, temp, server);
    var added := st.items + [server];
    var found := Find(added, product.id);
    assert added[|st.items|].product.id == product.id;
    assert found.Some? && found.value == |st.items|;
    FilterConcat(st.items, [server], LacksId(server.id));
    FilterKeepsAll(st.items, LacksId(server.id));
    assert Filter([server], LacksId(server.id)) == [];
  }

  /** What a restart would show: the cached list is the list on screen, and
      nothing cached means an empty list. */
  predicate Mirrored(st: WishlistState, storage: Storage) {
    CachedWishlist(storage).GetOr([]) == st.items
  }

  /** One wishlist action with its remote outcomes fixed. */
  datatype WishlistOp =
    | LoadOp(fetched: Result<seq<WishlistItem>, Error>)
    | AddOp(product: Product, tempId: string, now: string,
            added: Result<WishlistItem, Error>, reload: Result<seq<WishlistItem>, Error>)
    | RemoveOp(itemId: string, outcome: Outcome<Error>, reload: Result<seq<WishlistItem>, Error>)
    | ToggleOp(product: Product, tempId: string, now: string, added: Result<WishlistItem, Error>,
               outcome: Outcome<Error>, reload: Result<seq<WishlistItem>, Error>)
    | ClearOp(outcome: Outcome<Error>)

  function Apply(st: WishlistState, storage: Storage, op: WishlistOp): Step {
    match op
    case LoadOp(f) => LoadWishlist(st, storage, f)
    case AddOp(p, t, n, a, rel) => AddItem(st, storage, p, t, n, a, rel)
    case RemoveOp(id, o, rel) => RemoveItem(st, storage, id, o, rel)
    case ToggleOp(p, t, n, a, o, rel) => ToggleWishlist(st, storage, p, t, n, a, o, rel)
    case ClearOp(o) => ClearWishlist(st, storage, o)
  }

  function Run(st: WishlistState, storage: Storage, ops: seq<WishlistOp>): (r: (WishlistState, Storage))
    decreases |ops|
  {
    if |ops| == 0 then (st, storage)
    else
      var s := Apply(st, storage, ops[0]);
      Run(s.state, s.storage, ops[1..])
  }

  lemma ApplyKeepsMirrored(st: WishlistState, storage: Storage, op: WishlistOp)
    requires Mirrored(st, storage)
    ensures var s := Apply(st, storage, op); Mirrored(s.state, s.storage)
  {
  }

  /** Every sequence of wishlist actions, whatever the server answers, leaves
      the cache holding exactly the list on screen. */
  lemma {:induction false} RunKeepsMirrored(st: WishlistState, storage: Storage, ops: seq<WishlistOp>)
    requires Mirrored(st, storage)
    ensures var r := Run(st, storage, ops); Mirrored(r.0, r.1)
    decreases |ops|
  {
    if |ops| > 0 {
      ApplyKeepsMirrored(st, storage, ops[0]);
      var s := Apply(st, storage, ops[0]);
      RunKeepsMirrored(s.state, s.storage, ops[1..]);
    }
  }

  /** A restart whose fetch fails shows exactly the list the store held; after
      a clear that is the empty list. */
  lemma RestartShowsWishlist(st: WishlistState, storage: Storage, e: Error)
    requires Mirrored(st, storage)
    ensures LoadWishlist(INITIAL, storage, Failure(e)).state.items == st.items
  {
  }

  lemma ClearThenRestart(st: WishlistState, storage: Storage, response: Outcome<Error>, e: Error)
    ensures var cleared := ClearWishlist(st, storage, response);
      Mirrored(cleared.state, cleared.storage)
      && LoadWishlist(INITIAL, cleared.storage, Failure(e)).state.items == []
  {
  }
}

=== FILE: wrappers.dfy ===
/** Failure-compatible wrappers used for optional values and for the outcome of
    every remote call the stores make. */
module Wrappers {

  /** A value that may be absent (`null` / `undefined` in the application). */
  datatype Option<+T> = None | Some(value: T) {

    /** The wrapped value, or `default` when absent. */
    function GetOr(default: T): T {
      match this
      case Some(v) => v
      case None => default
    }
  }

  /** The outcome of a remote call: the resolved value or the rejection. */
  datatype Result<+R, +E> = Success(value: R) | Failure(error: E)

  /** The outcome of a remote call whose resolved value is ignored. */
  datatype Outcome<+E> = Pass | Fail(error: E)
}
